=== FILE: README.md ===
# auth-front: a Dafny model of the client-side session lifecycle

This project models the session core of a React single-page application that signs users in, keeps the session in `localStorage`, guards private routes and manages two small lists (to-dos and, for admins, user accounts). Each piece is an immutable record plus pure functions over abstract HTTP outcomes:

- **JavaScript values** (`Js`): `undefined`, `null`, booleans, strings, arrays and objects. The module also models truthiness, property access (which throws on nullish values), optional chaining, object rest destructuring and `String(v)`.
- **Session store** (`Storage`): the `token` and `user` keys of `localStorage`, plus the `token` cookie as a third key. A stored user is either the JSON text of a value or raw text that `JSON.parse` rejects. `JSON.stringify(undefined)` is stored as the string `"undefined"`.
- **HTTP** (`Http`): a request either resolves with a payload or rejects with an axios error. The error carries the request config and, unless it was a network failure, a response status and body. Hard redirects (`window.location.href`) and `alert`s are effect values.
- **Transport interceptors**: `ApiClient` models `src/api.ts`, `CookieClient` models `src/config/axios.ts` and `RefreshingClient` models `src/services/axiosInstance.ts`. Each has a request decorator and a response handler.
- **Session controller** (`AuthContext`): the initial state read from storage, the bootstrap that verifies the stored token against `/auth/profile`, and `login`, `register` and `logout`. Every request goes through the `src/api.ts` instance. On a rejection, that instance's 401 handler runs first, then the operation's own `catch`. Failures are classified into fixed messages (`AuthErrors`).
- **Alternative auth services**: `ClassifiedAuthService` models `src/services/auth.service.ts`, which writes both keys and classifies failures. `TokenAuthService` models `src/services/authService.ts`, which writes only `token` and lets failures through unclassified.
- **Routing**: `ProtectedRoute` and `RequireAuth` decide between rendering, waiting and redirecting. `AppRoutes` resolves a path through the route table inside the session provider.
- **Forms**: the sign-in and sign-up submit state machines (`LoginPage`, `SignupPage`), driven by how the session operation settled.
- **Lists**: `TodoList` (load, delete by id, replace by id, render precedence) and `UsersPage`. `UsersPage` covers payload normalisation, the admin gate, flipping `isActive` by `_id`, and access-before-loading render precedence.

The lemmas connect the pieces. Examples: reloading after a login restores the same user; logging out is idempotent; a visitor stopped by `ProtectedRoute` returns to the requested page after signing in, while `RequireAuth` in the route table sends them home; redirects in the route table settle within two hops.

## Model

| member | source | states |
|---|---|---|
| Storage.ParseSerialize | src/auth/AuthContext.tsx:22-39 | a user written with `JSON.stringify` reads back as the same value, except `undefined`, which is stored as text that no longer parses |
| Storage.Serialize | src/auth/AuthContext.tsx:39 | `JSON.stringify` then `setItem` stores JSON text exactly for a value other than `undefined`, and always a non-empty string |
| Storage.SetToken | src/auth/AuthContext.tsx:61 | `setItem('token', v)` stores `String(v)` and touches neither `user` nor the cookie |
| Storage.SetUser | src/auth/AuthContext.tsx:65 | `setItem('user', JSON.stringify(v))` stores the serialised value and touches neither `token` nor the cookie |
| Js.ToText | src/auth/AuthContext.tsx:61 | `String(v)`: a string is itself, `undefined` and `null` become the non-empty texts "undefined" and "null", booleans their names, objects "[object Object]", an empty array the empty text |
| Storage.Purge | src/auth/AuthContext.tsx:42-43 | removing `token` and `user` leaves no truthy token and no user, and keeps the cookie |
| Js.Omit | src/auth/AuthContext.tsx:82 | `{ access_token, ...rest }` keeps every other own property of an object payload, never contains `access_token`, and throws on a nullish payload |
| AuthErrors.LoginMessage | src/auth/AuthContext.tsx:66-71 | a sign-in failure reads "Invalid email or password" exactly when the status is 401, and "Login failed. Please try again." otherwise |
| AuthErrors.RegisterMessage | src/auth/AuthContext.tsx:87-92 | a sign-up failure reads "Email already exists" exactly when the status is 409, and the generic registration message otherwise |
| AuthContext.InitialUser | src/auth/AuthContext.tsx:22-25 | an absent or empty stored user starts as `null`; a non-empty stored user is `JSON.parse`d, which can fail |
| AuthContext.InitialToken | src/auth/AuthContext.tsx:26-28 | the initial token is the stored string, or `null` when the key is absent |
| AuthContext.TokenRoundTrip | src/auth/AuthContext.tsx:26-28 | a token written with `setItem` reads back at the next start as `String(v)`; a string reads back unchanged, and a nullish value leaves a truthy token behind |
| AuthContext.Initial | src/auth/AuthContext.tsx:21-29 | the provider starts loading with the stored token and the decoded stored user, and fails exactly when a non-empty stored user is not JSON |
| AuthContext.ProfileRequest | src/auth/AuthContext.tsx:37 | the profile request is a GET of `/auth/profile` and carries `Bearer <token>` exactly when the store holds a truthy token; it sends credentials and no body |
| AuthContext.LoginBody | src/auth/AuthContext.tsx:56-59 | the sign-in body holds exactly `email` and `password`, with the given values |
| AuthContext.InitializeAuth | src/auth/AuthContext.tsx:31-52 | the bootstrap always ends loading. With no stored token it sends nothing and changes nothing else. With one, a profile success adopts and re-stores the payload, and a failure clears both keys and both fields. Only a 401 hard-redirects to `/login`; every other outcome raises no effect |
| AuthContext.RegisterBody | src/auth/AuthContext.tsx:76-80 | the sign-up body holds exactly `name`, `email` and `password`, with the given values |
| AuthContext.Login | src/auth/AuthContext.tsx:54-72 | success needs a resolved non-null POST and a resolved profile; it stores `access_token` and the profile, and the profile request carries the new token. A 401 on either request purges the store and redirects. Any other failure after the POST keeps the written token. The user never changes on failure. A POST 401 leaves the session as it was, and a profile 401 leaves the session token at `access_token`. Success raises no effect, and the cookie is never touched |
| AuthContext.Register | src/auth/AuthContext.tsx:74-93 | success stores `access_token` as the token and the rest of the payload as the user, in state and store; 409 yields "Email already exists"; a failure leaves state unchanged and the store unchanged unless the status is 401 |
| AuthContext.Logout | src/auth/AuthContext.tsx:95-100 | logout nulls user and token, removes both keys, keeps the cookie and loading, and sends nothing |
| AuthContext.Provided | src/auth/AuthContext.tsx:104-108 | `{!loading && children}` yields the children, unchanged, exactly when loading is over |
| AuthContext.LogoutIdempotent | src/auth/AuthContext.tsx:95-100 | logging out twice gives the same state and store as logging out once |
| Storage.PurgeIdempotent | src/auth/AuthContext.tsx:96-97 | removing the two session keys a second time changes nothing; the controller's logout rests on it |
| AuthContext.ChildrenAfterBootstrap | src/auth/AuthContext.tsx:104-108 | children are hidden in the initial state and shown after the bootstrap, whatever the profile request returned |
| AuthContext.StoredUserWithoutTokenSurvives | src/auth/AuthContext.tsx:22-34 | a stored user without a stored token is never checked against the server and stays the session user after the bootstrap |
| AuthContext.ReloadAfterLogin | src/auth/AuthContext.tsx:60-65 | after a successful login, a fresh start restores the same user, and the token as the string that was stored |
| AuthContext.ReloadAfterRegister | src/auth/AuthContext.tsx:82-86 | after a successful registration, a fresh start restores the registered user |
| AuthContext.ReloadAfterLogout | src/auth/AuthContext.tsx:95-100 | after a logout, a fresh start is signed out and its bootstrap sends no request |
| AuthContext.MissingAccessTokenIsSentOnReload | src/auth/AuthContext.tsx:60-62 | a login payload without `access_token` leaves the token state `undefined` but stores the truthy string "undefined", which the next profile request sends as `Bearer undefined` |
| ApiClient.NewRequest | src/api.ts:3-9 | every request of this instance starts with a JSON content type and credentials included |
| ApiClient.Decorate | src/api.ts:12-18 | the request gains `Authorization: Bearer <token>` exactly when storage holds a truthy token; otherwise it is returned unchanged; no other header or field changes |
| ApiClient.Handle | src/api.ts:21-32 | the outcome is handed back unchanged; a 401 removes both keys and hard-redirects to `/login`; anything else leaves the store alone with no effect |
| ApiClient.DecorateIdempotent | src/api.ts:12-18 | decorating an already decorated request changes nothing |
| ApiClient.UnauthorizedThenUndecorated | src/api.ts:24-29 | after a 401, the next request leaves undecorated |
| CookieClient.Decorate | src/config/axios.ts:16-30 | with a truthy stored token the request gets the Bearer header and the cookie is set to the token; without one, request and store are unchanged; the two storage keys are never touched |
| CookieClient.Handle | src/config/axios.ts:33-43 | the outcome is handed back unchanged; a 401 empties both keys and expires the cookie; any other outcome leaves the store unchanged |
| CookieClient.UnauthorizedForgetsEverything | src/config/axios.ts:36-40 | after a 401 the store is the same whatever it held before, and holds no token |
| CookieClient.DecorateAgreesWithApiClient | src/config/axios.ts:16-30 | the request this instance sends carries the same `Authorization` header, and nothing else new, as one from the `src/api.ts` instance |
| RefreshingClient.NewRequest | src/services/axiosInstance.ts:3-10 | requests start with JSON content type and accept headers and credentials included |
| RefreshingClient.Decorate | src/services/axiosInstance.ts:13-27 | every request leaves with credentials included; only `options` requests gain the two pre-flight headers; other methods keep their headers |
| RefreshingClient.DecorateIdempotent | src/services/axiosInstance.ts:13-27 | decorating twice equals decorating once, so the retried request, which passes the interceptor again, gains nothing more |
| RefreshingClient.RefreshToken | src/services/axiosInstance.ts:72-82 | the refresh yields `data.token` when the refresh POST resolves with a non-null payload, and `null` otherwise |
| RefreshingClient.RefreshedRetryCarriesToken | src/services/axiosInstance.ts:43-48 | a refresh payload whose `token` is a non-empty string is retried with `Bearer <token>` |
| RefreshingClient.AlertFor | src/services/axiosInstance.ts:59-64 | 500 alerts the server-error text and 403 the forbidden text, as spelled in the file; other statuses alert nothing |
| RefreshingClient.HandleError | src/services/axiosInstance.ts:36-68 | the refresh POST (line 74) and the retry go through this same interceptor; their settlements and effects are inputs. On a 401 with a truthy refreshed token, the original request (same verb, URL and body) is retried with the refreshed Bearer header and credentials; the retry's outcome is returned after the refresh's and the retry's effects. A 401 without one raises the refresh's effects, hard-redirects to `/login` and rejects with the original error. Other statuses reject with the original error after their alert |
| RefreshingClient.Handle | src/services/axiosInstance.ts:30-69 | successes pass through with no effect; failures go to the error handler |
| RefreshingClient.NeverSwallowed | src/services/axiosInstance.ts:41-67 | a failure comes back as the original rejection unless a 401 was retried |
| RefreshingClient.AlertsOnlyFor500And403 | src/services/axiosInstance.ts:41-74 | an alert is raised exactly when the response was a 500 or a 403, or a 401 whose refresh POST (or, once refreshed, whose retry) raised one |
| ClassifiedAuthService.Persist | src/services/auth.service.ts:27-30 | a non-null payload is returned unchanged after `access_token` and `user` are written; a null payload throws the fallback message with the store untouched |
| ClassifiedAuthService.Login | src/services/auth.service.ts:24-38 | success returns the payload and writes both keys. 401 yields "Invalid email or password", and the shared instance has then already purged the store and redirected. Other failures yield the generic message and leave the store alone. The success path raises no effect |
| ClassifiedAuthService.Register | src/services/auth.service.ts:40-54 | the same success path as login, with no effect on success; 409 yields "Email already exists", anything else the generic message |
| ClassifiedAuthService.Logout | src/services/auth.service.ts:56-59 | removes exactly `token` and `user` |
| ClassifiedAuthService.GetCurrentUser | src/services/auth.service.ts:61-68 | never throws: it returns the profile payload, or `null` on any failure. A failure carries the shared instance's store change and effects, which are none except for a 401 |
| ClassifiedAuthService.LoginWithoutUserBreaksNextStart | src/services/auth.service.ts:27-29 | a login payload without `user` succeeds, but stores text that makes the session controller's first render fail to parse |
| ClassifiedAuthService.LoginThenStartRestoresUser | src/services/auth.service.ts:27-30 | a login payload's `user` is what the session controller starts with next time |
| ClassifiedAuthService.RegisterThenStartRestoresUser | src/services/auth.service.ts:43-46 | a registration payload's `user` is what the session controller starts with next time |
| ClassifiedAuthService.LogoutMatchesController | src/services/auth.service.ts:56-59 | this logout leaves the store exactly as the session controller's logout does |
| ClassifiedAuthService.CurrentUserKeepsWhatBootstrapForgets | src/services/auth.service.ts:61-68 | a non-401 failure keeps the stored session here, while the session controller's bootstrap clears it on the same response |
| TokenAuthService.Post | src/services/authService.ts:24 | a POST of this instance keeps its URL and body, carries exactly the instance's JSON `Content-Type` and `Accept` headers, and always includes credentials |
| TokenAuthService.PostAndStoreToken | src/services/authService.ts:23-33 | the request is the decorated POST; after interception, a resolved non-null payload is returned and its `token` stored; a rejection propagates unclassified and a null payload throws, both with the store unchanged; `user` is never touched |
| TokenAuthService.Login | src/services/authService.ts:23-27 | the credentials go to `/auth/login`; success stores `data.token` only. The interceptor's effects are passed along. A rejection propagates as is, and every failure leaves the store unchanged. A null payload throws a TypeError. On a 401 the result is the refresh-and-retry's: its rejection, or the retried payload whose token is stored |
| TokenAuthService.Register | src/services/authService.ts:29-33 | the name, e-mail and password go to `/auth/register`; success stores `data.token` only. The interceptor's effects are passed along. A rejection propagates as is, and every failure leaves the store unchanged. A null payload throws a TypeError. On a 401 the result is the refresh-and-retry's: its rejection, or the retried payload whose token is stored |
| TokenAuthService.Logout | src/services/authService.ts:35-37 | removes `token` and leaves `user` in place |
| TokenAuthService.MeRequest | src/services/authService.ts:41 | the current-user query is a GET of `/auth/me` with credentials, no body and only the instance's JSON headers, so no `Authorization` |
| TokenAuthService.GetCurrentUser | src/services/authService.ts:39-46 | returns the intercepted payload of `/auth/me`, which after a refreshed 401 is the retry's payload, or `null` whenever the intercepted request rejects; the interceptor's effects are passed along |
| TokenAuthService.LogoutKeepsUserSignedIn | src/services/authService.ts:35-37 | after this logout a stored user survives, and the session controller's next start is still signed in without asking the server |
| TokenAuthService.PostThenStartKeepsUser | src/services/authService.ts:23-33 | after a successful sign-in or sign-up of this service, the session controller's next start sees the new `data.token` and the same user as before |
| TokenAuthService.CurrentUserAgreesAcrossServices | src/services/authService.ts:39-46 | away from a 401, this service and the classified one report the same current user for the same response |
| Routing.ProtectedRoute | src/components/ProtectedRoute.tsx:8-23 | waits exactly while loading. Once loaded it renders the children unchanged exactly when there is a user; otherwise it redirects to `/login` with `replace`, carrying the current location as `from` |
| Routing.RequireAuth | src/components/RequireAuth.tsx:8-16 | never waits; renders the children exactly when there is a user, otherwise redirects to `/login` with `replace` and no state |
| Routing.GuardsAgreeOnceLoaded | src/components/RequireAuth.tsx:9-13 | once loaded, both guards let the same users in, and their redirects differ only in the `from` state |
| AppRoutes.Resolve | src/App.tsx:10-38 | nothing resolves while the session loads. `/login` and `/signup` are unguarded. `/todos` and `/` show their pages exactly for a user and otherwise redirect to `/login`. Every other path redirects to `/` with `replace` |
| AppRoutes.RedirectsSettle | src/App.tsx:15-33 | from any path, following redirects reaches a page within two hops |
| AppRoutes.TurnedAwayVisitorLandsHome | src/App.tsx:17-32 | a visitor sent away from a private page carries no `from`, so signing in lands on `/` |
| LoginPage.From | src/pages/LoginPage.tsx:15 | the target is `state.from.pathname` when it is non-empty, else `/` |
| LoginPage.Submit | src/pages/LoginPage.tsx:17-35 | a submit while loading does nothing. Otherwise the error is cleared and loading set before `login`. Success navigates to `from` with `replace`; failure shows the thrown message or the fallback. Loading ends either way |
| LoginPage.DoubleSubmitIgnored | src/pages/LoginPage.tsx:19 | a second submit during a pending one is ignored |
| LoginPage.ControllerMessagesShownVerbatim | src/pages/LoginPage.tsx:29-31 | every message the session controller throws is shown as is, so the fallback text never appears |
| LoginPage.ProtectedRouteRoundTrip | src/pages/LoginPage.tsx:15 | a visitor redirected by `ProtectedRoute` returns after signing in to the pathname they requested |
| SignupPage.Submit | src/pages/SignupPage.tsx:15-28 | clears the error and sets loading before calling `register` with the four fields; success navigates to `/`; failure shows the message or "Registration failed. Please try again."; loading ends either way, and the name, e-mail, password and role typed are kept |
| SignupPage.RequestBody | src/pages/SignupPage.tsx:21 | the request built from the call has no `role` |
| SignupPage.RoleNeverSent | src/pages/SignupPage.tsx:9-21 | the selected role never changes the request sent |
| TodoList.LoadTodos | src/components/TodoList.tsx:17-27 | a successful load adopts the fetched list and clears the error; a failure keeps the list and reports "Failed to load todos"; loading ends either way |
| TodoList.WithoutId | src/components/TodoList.tsx:32 | the result holds exactly the to-dos of other ids and none of the given id, and is never longer |
| TodoList.WithoutIdCounts | src/components/TodoList.tsx:32 | every to-do of another id is kept as many times as it occurred; none of the given id is kept |
| TodoList.WithoutIdAppend | src/components/TodoList.tsx:32 | filtering distributes over concatenation, so kept to-dos keep their order |
| TodoList.WithoutAbsentId | src/components/TodoList.tsx:32 | a list without that id is returned unchanged |
| TodoList.WithoutIdIdempotent | src/components/TodoList.tsx:29-32 | deleting the same id twice equals deleting it once |
| TodoList.Delete | src/components/TodoList.tsx:29-36 | a successful delete removes that id's to-dos; a failure keeps the list and reports "Failed to delete todo" |
| TodoList.ReplaceById | src/components/TodoList.tsx:43 | the length is preserved; entries with the id become the server's to-do, all others stay in place |
| TodoList.ToggleComplete | src/components/TodoList.tsx:38-47 | the request asks for the negated flag of that to-do's id; success replaces by id; failure keeps the list and reports "Failed to update todo" |
| TodoList.Edit | src/components/TodoList.tsx:49-51 | the editor opens on that to-do and the list is untouched |
| TodoList.CancelEdit | src/components/TodoList.tsx:53-55 | the editor closes and the list is untouched |
| TodoList.FinishEdit | src/components/TodoList.tsx:70-73 | finishing an edit closes the editor and reloads the list: a successful reload replaces the list and clears the error, a failed one keeps the list and shows the load error |
| TodoList.Render | src/components/TodoList.tsx:57-58 | loading is shown first, then a non-empty error, and the list only when neither applies |
| TodoList.FailedMutationHidesList | src/components/TodoList.tsx:29-58 | after a failed delete or update the whole list is replaced on screen by the failure message |
| TodoList.ReloadClearsError | src/components/TodoList.tsx:17-27 | a successful reload brings the list back whatever error was shown |
| UsersPage.ErrorText | src/pages/UsersPage.tsx:35 | the server's `message` when it is truthy, else the fallback; never falsy for a non-empty fallback |
| UsersPage.Normalize | src/pages/UsersPage.tsx:27-31 | an array payload is used as is, else `data.users` if it is an array, else the empty list; a null payload throws |
| UsersPage.IsAdmin | src/pages/UsersPage.tsx:41 | `user?.role === 'admin'` holds exactly for an object whose `role` is the string "admin" |
| UsersPage.NormalizeIdempotent | src/pages/UsersPage.tsx:27-31 | a normalised list normalises to itself |
| UsersPage.FetchUsers | src/pages/UsersPage.tsx:23-44 | fetches exactly for an admin. The list is replaced by the normalised payload, or the error set; loading ends. For anyone else nothing changes |
| UsersPage.Flip | src/pages/UsersPage.tsx:57 | the copy keeps every other property and negates the truthiness of `isActive` |
| UsersPage.HasIdReadsUnderscoreId | src/pages/UsersPage.tsx:57 | the entry test `u._id === id` holds exactly when `u` is not nullish and its `_id` reads as the string `id` |
| UsersPage.FlipKeys | src/pages/UsersPage.tsx:57 | the spread copy has exactly the original's properties plus `isActive` |
| UsersPage.FlipById | src/pages/UsersPage.tsx:56-58 | the length is preserved; exactly the entries whose `_id` matches are flipped, all others unchanged |
| UsersPage.FlipByIdInvolution | src/pages/UsersPage.tsx:56-58 | toggling the same account twice restores the list when its `isActive` is a boolean |
| UsersPage.ToggleAgainst | src/pages/UsersPage.tsx:46-65 | toggling one's own id sets the self-deactivation error, closes the modal, clears the selection and sends nothing. Otherwise the PATCH is sent; success flips by id and closes the modal; failure only sets the error |
| UsersPage.ToggleStatus | src/pages/UsersPage.tsx:46-65 | as written: the request is skipped exactly when the session user's `id` equals the target. It then shows the self-deactivation error, closes the modal and keeps the list |
| UsersPage.SelfGuardMissesUnderscoreId | src/pages/UsersPage.tsx:48 | an admin whose session user carries only `_id` toggles their own account: the request is sent and the entry flipped |
| UsersPage.ToggleStatusByUnderscoreId | src/pages/UsersPage.tsx:48-52 | corrected: toggling the account whose `_id` is the session user's sends nothing and leaves the list unchanged |
| UsersPage.OpenConfirm | src/pages/UsersPage.tsx:67-70 | opening the confirmation selects that entry and leaves the list alone |
| UsersPage.CancelConfirm | src/pages/UsersPage.tsx:187-190 | cancelling closes the modal and clears the selection |
| UsersPage.Render | src/pages/UsersPage.tsx:72-92 | access is denied exactly to a non-admin, before the loading view; an admin sees loading, then the table |
| UsersPage.FetchMatchesAccess | src/pages/UsersPage.tsx:41-82 | the page fetches exactly when it does not deny access, and a denied page stays denied |

## Findings

| source | as written | input that shows it | evidently intended | confidence | as-written member | corrected member |
|---|---|---|---|---|---|---|
| src/pages/UsersPage.tsx:48 | the self-deactivation guard compares the target with `user?.id` | the session user `{ _id: "a1", role: "admin" }` toggles `"a1"`: the PATCH is sent and the entry flipped (`UsersPage.SelfGuardMissesUnderscoreId`) | compare with `user._id`, the identifier the session user (src/auth/AuthContext.tsx:4-8) and the list entries (src/pages/UsersPage.tsx:6-13) carry | medium; not executed; the backend might also send `id` | UsersPage.ToggleStatus | UsersPage.ToggleStatusByUnderscoreId |

## Left out

- Markup, styling, the modal's text and the date formatting of the users table: presentation only.
- `src/pages/HomePage.tsx`, `src/pages/TodosPage.tsx`, `src/components/TodoForm.tsx` and `src/components/TodoEditForm.tsx` are not part of this model. They only forward form fields to the to-do service.
- `src/services/todo.service.ts` is not part of this model. Each of its calls is an opaque `Result`: the value, or a thrown message the list ignores.
- Real HTTP, axios and fetch internals, and base-URL selection from `import.meta.env`: foreign code and configuration. Responses are inputs.
- `console.*` logging has no observable effect on the modelled state. `window.location.href` and `alert` are effect values; the page reload a hard redirect causes is not chained, and the reload lemmas state what a fresh start sees.
- React scheduling, re-render timing, stale closures and interleaved async calls: each operation is one atomic step. `UsersPage.FetchUsers` is one run of the effect, which React repeats whenever the user changes.
- JavaScript numbers: no field the core reads is numeric.
- Cookie attributes (`path`, `secure`, `samesite`, the expiry date) and any cookie the server sets: the cookie is a single optional value.
- Js.Omit: the rest object of a non-empty string or array payload is empty in the model, although JavaScript copies its index keys; only objects are destructured in practice.
- Js.Get: properties inherited from prototypes are not modelled; none of the keys the core reads is one.
- Storage.Serialize: `JSON.stringify` drops `undefined` properties and turns `undefined` array elements into `null`; the model keeps them. A network payload never contains `undefined`, and the core only stringifies network payloads or their rest objects.
- Storage.Parse: raw stored text that happens to be valid JSON (such as `null`) is treated as unparsable; the core only ever writes JSON through `JSON.stringify`.
- RefreshingClient.HandleError: the refresh POST and the retried request re-enter the same interceptor and may recurse without bound. How each settles, and the effects it raised on its way back, are inputs; they are not unfolded.
- RefreshingClient.HandleError: the `catch` at src/services/axiosInstance.ts:53-56 is not modelled. `refreshToken` never throws, so that branch is reached only when an error carries no request config, which the model's errors always carry.
- UsersPage.FetchUsers, UsersPage.ToggleAgainst: the 401 purge the `src/config/axios.ts` instance performs on the page's requests is modelled in `CookieClient.Handle`, not repeated in the page state.
- AppRoutes.Resolve: paths are matched exactly. react-router's case-insensitive, trailing-slash-tolerant matching is not modelled.

=== FILE: api_client.dfy ===
/**
 * The axios instance of `src/api.ts`, used by the session controller and the
 * classified auth service: a Bearer header from storage on the way out, and
 * a purge of the stored session on a 401 on the way back.
 */
module ApiClient {
  import opened Wrappers
  import opened Js
  import opened Storage
  import opened Http

  /** A request carrying the instance defaults (JSON content type, credentials). */
  function NewRequest(verb: string, url: string, body: Value): (r: Request)
    ensures r.verb == verb && r.url == url && r.body == body
    ensures r.withCredentials
    ensures r.headers == map["Content-Type" := "application/json"]
  {
    Request(verb, url, map["Content-Type" := "application/json"], true, body)
  }

  /** The request interceptor. */
  function Decorate(req: Request, store: Store): (r: Request)
    ensures HasToken(store) ==> "Authorization" in r.headers && r.headers["Authorization"] == Bearer(store.token.value)
    ensures !HasToken(store) ==> r == req
    ensures r.(headers := req.headers) == req
    ensures forall k :: k != "Authorization" ==> (k in r.headers <==> k in req.headers)
    ensures forall k :: k != "Authorization" && k in req.headers ==> r.headers[k] == req.headers[k]
  {
    if HasToken(store) then req.(headers := req.headers["Authorization" := Bearer(store.token.value)])
    else req
  }

  /** What the response interceptor hands back, with its side effects. */
  datatype Handled = Handled(outcome: Outcome, store: Store, effects: seq<Effect>)

  /** The response interceptor, on a success and on a failure. */
  function Handle(o: Outcome, store: Store): (h: Handled)
    ensures h.outcome == o
    ensures IsStatus(o, 401) ==> h.store == Purge(store) && h.effects == [HardRedirect(LOGIN_PATH)]
    ensures !IsStatus(o, 401) ==> h.store == store && h.effects == []
  {
    if IsStatus(o, 401) then Handled(o, Purge(store), [HardRedirect(LOGIN_PATH)])
    else Handled(o, store, [])
  }

  /** Decorating twice adds nothing. */
  lemma DecorateIdempotent(req: Request, store: Store)
    ensures Decorate(Decorate(req, store), store) == Decorate(req, store)
  {
  }

  /**
   * After a 401 the next request carries no Bearer header of the purged
   * session: the two interceptors agree.
   */
  lemma UnauthorizedThenUndecorated(o: Outcome, store: Store, req: Request)
    requires IsStatus(o, 401)
    ensures Decorate(req, Handle(o, store).store) == req
  {
  }
}

=== FILE: app_routes.dfy ===
/**
 * The route table of `src/App.tsx`: the router sits inside the session
 * provider, and the two private pages are wrapped in `RequireAuth`.
 */
module AppRoutes {
  import opened Js
  import Http
  import opened Routing
  import AuthContext
  import LoginPage

  datatype Page = LoginScreen | SignupScreen | TodosScreen | HomeScreen

  /** What the application shows at a path. */
  datatype Screen = Blank | Show(page: Page) | Go(to: string, replace: bool, state: NavState)

  function FromGuard(d: Decision<Page>): Screen {
    match d
    case Render(p) => Show(p)
    case Wait => Blank
    case Redirect(to, replace, state) => Go(to, replace, state)
  }

  /** The screen for a path. Paths are matched exactly. */
  function Resolve(path: string, session: AuthContext.Session): (r: Screen)
    ensures session.loading <==> r.Blank?
    ensures !session.loading && (path == "/login" || path == "/signup") ==>
      r == Show(if path == "/login" then LoginScreen else SignupScreen)
    ensures !session.loading && (path == "/todos" || path == "/") ==>
      (r.Show? <==> Truthy(session.user)) &&
      (r.Show? ==> r.page == (if path == "/todos" then TodosScreen else HomeScreen)) &&
      (!r.Show? ==> r == Go(Http.LOGIN_PATH, true, NoState))
    ensures !session.loading && path !in {"/login", "/signup", "/todos", "/"} ==> r == Go("/", true, NoState)
  {
    if session.loading then Blank
    else if path == "/login" then Show(LoginScreen)
    else if path == "/signup" then Show(SignupScreen)
    else if path == "/todos" then FromGuard(RequireAuth(session.user, TodosScreen))
    else if path == "/" then FromGuard(RequireAuth(session.user, HomeScreen))
    else Go("/", true, NoState)
  }

  /** Following redirects from any path reaches a page within two hops: there is no redirect loop. */
  lemma RedirectsSettle(path: string, session: AuthContext.Session)
    requires !session.loading
    ensures var s1 := Resolve(path, session);
      s1.Show? ||
      (s1.Go? && (var s2 := Resolve(s1.to, session);
                  s2.Show? || (s2.Go? && Resolve(s2.to, session).Show?)))
  {
  }

  /** A visitor turned away from a private page signs in and lands on home, not on the page they asked for. */
  lemma TurnedAwayVisitorLandsHome(path: string, session: AuthContext.Session)
    requires !session.loading && !Truthy(session.user) && (path == "/todos" || path == "/")
    ensures Resolve(path, session) == Go(Http.LOGIN_PATH, true, NoState)
    ensures LoginPage.From(Resolve(path, session).state) == "/"
  {
  }
}

=== FILE: auth_context.dfy ===
/**
 * The session controller of `src/auth/AuthContext.tsx`: React state
 * `(user, token, loading)` mirrored into the store. Every request goes
 * through the `src/api.ts` instance, so a rejected request first runs that
 * instance's response interceptor and only then the operation's `catch`.
 */
module AuthContext {
  import opened Wrappers
  import opened Js
  import opened Storage
  import opened Http
  import ApiClient
  import opened AuthErrors

  datatype Session = Session(user: Value, token: Value, loading: bool)

  /** One operation: the state and store it leaves, what it sent, and what it threw. */
  datatype Step = Step(
    session: Session,
    store: Store,
    requests: seq<Request>,
    effects: seq<Effect>,
    thrown: Option<string>)

  /** A payload as the network can deliver it: parsed JSON is never `undefined`. */
  predicate Delivered(o: Outcome) {
    o.Resolved? ==> o.data != Undefined
  }

  /** The `user` initialiser: `JSON.parse` of a truthy stored value, which throws on corrupt text. */
  function InitialUser(store: Store): (r: Result<Value, ParseError>)
    ensures store.user.None? ==> r == Success(Null)
    ensures store.user.Some? && !TextTruthy(store.user.value) ==> r == Success(Null)
    ensures store.user.Some? && TextTruthy(store.user.value) ==> r == Parse(store.user.value)
  {
    match store.user
    case None => Success(Null)
    case Some(t) => if TextTruthy(t) then Parse(t) else Success(Null)
  }

  /** The `token` initialiser: the stored string, or `null`. */
  function InitialToken(store: Store): (r: Value)
    ensures store.token.None? ==> r == Null
    ensures store.token.Some? ==> r == Str(store.token.value)
  {
    if store.token.Some? then Str(store.token.value) else Null
  }

  /** The provider's first state; it fails exactly when a non-empty stored user is not JSON. */
  function Initial(store: Store): (r: Result<Session, ParseError>)
    ensures r.Failure? <==> store.user.Some? && store.user.value.Raw? && store.user.value.s != ""
    ensures r.Success? ==> r.value.loading && r.value.token == InitialToken(store)
    ensures r.Success? && store.user.Some? && store.user.value.JsonText? ==> r.value.user == store.user.value.v
    ensures r.Success? && !(store.user.Some? && store.user.value.JsonText?) ==> r.value.user == Null
  {
    match InitialUser(store)
    case Failure(e) => Failure(e)
    case Success(u) => Success(Session(u, InitialToken(store), true))
  }

  /** `GET /auth/profile` as it leaves the client, decorated from the store. */
  function ProfileRequest(store: Store): (r: Request)
    ensures r.verb == "get" && r.url == "/auth/profile" && r.withCredentials && r.body == Undefined
    ensures HasToken(store) ==> "Authorization" in r.headers && r.headers["Authorization"] == Bearer(store.token.value)
    ensures !HasToken(store) ==> "Authorization" !in r.headers
  {
    ApiClient.Decorate(ApiClient.NewRequest("get", "/auth/profile", Undefined), store)
  }

  /**
   * `initializeAuth`: with a stored token, verify it against the profile
   * endpoint; adopt the profile on success, forget the session on failure.
   * It always ends the loading phase.
   */
  function InitializeAuth(s: Session, store: Store, profile: Outcome): (r: Step)
    ensures !r.session.loading && r.thrown.None?
    ensures r.store.cookie == store.cookie
    ensures !HasToken(store) ==> r == Step(s.(loading := false), store, [], [], None)
    ensures HasToken(store) ==> r.requests == [ProfileRequest(store)]
    ensures HasToken(store) && profile.Resolved? ==>
      r.session == Session(profile.data, Str(store.token.value), false) &&
      r.store == SetUser(store, profile.data) && r.effects == []
    ensures HasToken(store) && profile.Rejected? ==>
      r.session == Session(Null, Null, false) && r.store.token.None? && r.store.user.None?
    ensures HasToken(store) && IsStatus(profile, 401) ==> r.effects == [HardRedirect(LOGIN_PATH)]
    ensures !IsStatus(profile, 401) ==> r.effects == []
  {
    if !HasToken(store) then Step(s.(loading := false), store, [], [], None)
    else
      var s1 := s.(token := Str(store.token.value));
      var h := ApiClient.Handle(profile, store);
      match h.outcome
      case Resolved(d) =>
        Step(s1.(user := d, loading := false), SetUser(h.store, d), [ProfileRequest(store)], h.effects, None)
      case Rejected(_) =>
        Step(s1.(user := Null, token := Null, loading := false), Purge(h.store), [ProfileRequest(store)], h.effects, None)
  }

  /** The sign-in body: exactly the two credentials. */
  function LoginBody(email: string, password: string): (b: Value)
    ensures b.Obj? && b.fields.Keys == {"email", "password"}
    ensures b.fields["email"] == Str(email) && b.fields["password"] == Str(password)
  {
    Obj(map["email" := Str(email), "password" := Str(password)])
  }

  /** The sign-up body: exactly the three fields, without a role. */
  function RegisterBody(name: string, email: string, password: string): (b: Value)
    ensures b.Obj? && b.fields.Keys == {"name", "email", "password"}
    ensures b.fields["name"] == Str(name) && b.fields["email"] == Str(email) && b.fields["password"] == Str(password)
  {
    Obj(map["name" := Str(name), "email" := Str(email), "password" := Str(password)])
  }

  /**
   * `login`: POST the credentials, store `access_token`, then fetch and
   * store the profile. `post` and `profile` are how the two requests settle.
   */
  function Login(s: Session, store: Store, email: string, password: string, post: Outcome, profile: Outcome): (r: Step)
    ensures r.session.loading == s.loading
    ensures |r.requests| >= 1 &&
      r.requests[0] == ApiClient.Decorate(ApiClient.NewRequest("post", "/auth/login", LoginBody(email, password)), store)
    ensures post.Resolved? && !Nullish(post.data) ==>
      r.requests == [r.requests[0], ProfileRequest(SetToken(store, Get(post.data, "access_token").value))]
    ensures r.thrown.Some? ==> r.thrown.value == INVALID_CREDENTIALS || r.thrown.value == LOGIN_FAILED
    ensures r.thrown.None? <==> post.Resolved? && !Nullish(post.data) && profile.Resolved?
    ensures r.thrown.None? ==>
      var t := Get(post.data, "access_token").value;
      r.session == s.(token := t, user := profile.data) &&
      r.store == SetUser(SetToken(store, t), profile.data)
    ensures r.thrown == Some(INVALID_CREDENTIALS) <==>
      IsStatus(post, 401) || (post.Resolved? && !Nullish(post.data) && IsStatus(profile, 401))
    ensures r.thrown == Some(INVALID_CREDENTIALS) ==>
      !HasToken(r.store) && r.store.user.None? && r.effects == [HardRedirect(LOGIN_PATH)]
    ensures r.thrown == Some(LOGIN_FAILED) && (post.Rejected? || Nullish(post.data)) ==>
      r.session == s && r.store == store && r.effects == []
    ensures r.thrown == Some(LOGIN_FAILED) && post.Resolved? && !Nullish(post.data) ==>
      var t := Get(post.data, "access_token").value;
      r.session == s.(token := t) && r.store == SetToken(store, t) && r.effects == []
    ensures r.thrown.Some? ==> r.session.user == s.user
    ensures r.thrown.None? ==> r.effects == []
    ensures r.store.cookie == store.cookie
    ensures post.Rejected? || Nullish(post.data) ==> |r.requests| == 1
    ensures IsStatus(post, 401) ==> r.session == s && r.store == Purge(store)
    ensures post.Resolved? && !Nullish(post.data) ==>
      r.session.token == Get(post.data, "access_token").value
    ensures post.Resolved? && !Nullish(post.data) && IsStatus(profile, 401) ==>
      r.store == Purge(SetToken(store, Get(post.data, "access_token").value))
  {
    var req := ApiClient.Decorate(ApiClient.NewRequest("post", "/auth/login", LoginBody(email, password)), store);
    var h1 := ApiClient.Handle(post, store);
    match h1.outcome
    case Rejected(e) => Step(s, h1.store, [req], h1.effects, Some(LoginMessage(HttpFailure(e))))
    case Resolved(d) =>
      match Get(d, "access_token")
      case Failure(_) => Step(s, store, [req], [], Some(LoginMessage(TypeFailure)))
      case Success(t) =>
        var store1 := SetToken(store, t);
        var s1 := s.(token := t);
        var h2 := ApiClient.Handle(profile, store1);
        match h2.outcome
        case Rejected(e) => Step(s1, h2.store, [req, ProfileRequest(store1)], h2.effects, Some(LoginMessage(HttpFailure(e))))
        case Resolved(u) => Step(s1.(user := u), SetUser(store1, u), [req, ProfileRequest(store1)], [], None)
  }

  /**
   * `register`: POST the new account; the response's `access_token` becomes
   * the token and the rest of the response becomes the user.
   */
  function Register(s: Session, store: Store, name: string, email: string, password: string, post: Outcome): (r: Step)
    ensures r.session.loading == s.loading
    ensures r.requests == [ApiClient.Decorate(ApiClient.NewRequest("post", "/auth/register", RegisterBody(name, email, password)), store)]
    ensures r.thrown.Some? ==> r.thrown.value == EMAIL_TAKEN || r.thrown.value == REGISTRATION_FAILED
    ensures r.thrown.None? <==> post.Resolved? && !Nullish(post.data)
    ensures r.thrown.None? ==>
      var t := Get(post.data, "access_token").value;
      var u := Omit(post.data, "access_token").value;
      r.session == s.(token := t, user := u) &&
      r.store == SetUser(SetToken(store, t), u) && r.effects == []
    ensures r.thrown == Some(EMAIL_TAKEN) <==> IsStatus(post, 409)
    ensures r.thrown.Some? ==> r.session == s
    ensures r.thrown.Some? && !IsStatus(post, 401) ==> r.store == store && r.effects == []
    ensures IsStatus(post, 401) ==> r.store == Purge(store) && r.effects == [HardRedirect(LOGIN_PATH)]
  {
    var req := ApiClient.Decorate(ApiClient.NewRequest("post", "/auth/register", RegisterBody(name, email, password)), store);
    var h := ApiClient.Handle(post, store);
    match h.outcome
    case Rejected(e) => Step(s, h.store, [req], h.effects, Some(RegisterMessage(HttpFailure(e))))
    case Resolved(d) =>
      match (Get(d, "access_token"), Omit(d, "access_token"))
      case (Success(t), Success(u)) =>
        Step(s.(token := t, user := u), SetUser(SetToken(store, t), u), [req], [], None)
      case _ => Step(s, store, [req], [], Some(RegisterMessage(TypeFailure)))
  }

  /** `logout`: forget the session in state and store; no request is sent. */
  function Logout(s: Session, store: Store): (r: Step)
    ensures r.session.user == Null && r.session.token == Null && r.session.loading == s.loading
    ensures r.store.token.None? && r.store.user.None? && r.store.cookie == store.cookie
    ensures r.requests == [] && r.effects == [] && r.thrown.None?
  {
    Step(s.(user := Null, token := Null), Purge(store), [], [], None)
  }

  /** `{!loading && children}`: the provider renders its children only once loading is over. */
  function Provided<T>(s: Session, children: T): (r: Option<T>)
    ensures r.Some? <==> !s.loading
    ensures r.Some? ==> r.value == children
  {
    if s.loading then None else Some(children)
  }

  /** A token written with `setItem` is read back at the next start as the text of the value. */
  lemma TokenRoundTrip(store: Store, v: Value)
    ensures InitialToken(SetToken(store, v)) == Str(ToText(v))
    ensures v.Str? ==> InitialToken(SetToken(store, v)) == v
    ensures Nullish(v) ==> HasToken(SetToken(store, v))
  {
  }

  /** Logging out twice is the same as logging out once. */
  lemma LogoutIdempotent(s: Session, store: Store)
    ensures var once := Logout(s, store);
            Logout(once.session, once.store) == once
  {
    PurgeIdempotent(store);
  }

  /** Children are hidden at first and shown once the bootstrap has run, whatever the server said. */
  lemma ChildrenAfterBootstrap<T>(store: Store, profile: Outcome, children: T)
    requires Initial(store).Success?
    ensures Provided(Initial(store).value, children).None?
    ensures Provided(InitializeAuth(Initial(store).value, store, profile).session, children) == Some(children)
  {
  }

  /**
   * A stored user without a stored token is never checked with the server:
   * it survives the bootstrap as the signed-in user.
   */
  lemma StoredUserWithoutTokenSurvives(store: Store, profile: Outcome)
    requires !HasToken(store) && store.user.Some? && store.user.value.JsonText?
    ensures Initial(store).Success?
    ensures var r := InitializeAuth(Initial(store).value, store, profile);
            r.session.user == store.user.value.v && r.requests == []
  {
  }

  /**
   * Reloading after a successful login restores the same user, and the
   * token as the string that was stored.
   */
  lemma ReloadAfterLogin(s: Session, store: Store, email: string, password: string, post: Outcome, profile: Outcome)
    requires Delivered(profile)
    requires Login(s, store, email, password, post, profile).thrown.None?
    ensures var r := Login(s, store, email, password, post, profile);
            Initial(r.store) == Success(Session(r.session.user, Str(ToText(r.session.token)), true))
  {
  }

  /** Reloading after a successful registration restores the registered user. */
  lemma ReloadAfterRegister(s: Session, store: Store, name: string, email: string, password: string, post: Outcome)
    requires Register(s, store, name, email, password, post).thrown.None?
    ensures var r := Register(s, store, name, email, password, post);
            Initial(r.store) == Success(Session(r.session.user, Str(ToText(r.session.token)), true))
  {
  }

  /** Reloading after a logout starts signed out and asks the server nothing. */
  lemma ReloadAfterLogout(s: Session, store: Store, profile: Outcome)
    ensures var out := Logout(s, store);
            Initial(out.store) == Success(Session(Null, Null, true)) &&
            InitializeAuth(Initial(out.store).value, out.store, profile) ==
              Step(Session(Null, Null, false), out.store, [], [], None)
  {
  }

  /**
   * A login response without `access_token` stores the string "undefined",
   * which is truthy: the next bootstrap sends it as a Bearer token.
   */
  lemma MissingAccessTokenIsSentOnReload(s: Session, store: Store, email: string, password: string, post: Outcome, profile: Outcome)
    requires post.Resolved? && post.data.Obj? && "access_token" !in post.data.fields
    requires profile.Resolved? && profile.data != Undefined
    ensures var r := Login(s, store, email, password, post, profile);
            r.thrown.None? && r.session.token == Undefined && HasToken(r.store) &&
            ProfileRequest(r.store).headers["Authorization"] == "Bearer undefined"
  {
  }
}

=== FILE: auth_errors.dfy ===
/**
 * How a failed sign-in or sign-up is reported to the form: the `catch`
 * blocks of the session controller and of the classified auth service turn
 * whatever was thrown into one of two fixed messages each.
 */
module AuthErrors {
  import opened Wrappers
  import opened Http

  const INVALID_CREDENTIALS := "Invalid email or password"
  const LOGIN_FAILED := "Login failed. Please try again."
  const EMAIL_TAKEN := "Email already exists"
  const REGISTRATION_FAILED := "Registration failed. Please try again."

  /** A sign-in failure: 401 is a credential problem, anything else is generic. */
  function LoginMessage(t: Thrown): (m: string)
    ensures m == INVALID_CREDENTIALS <==> ThrownStatus(t) == Some(401)
    ensures m == INVALID_CREDENTIALS || m == LOGIN_FAILED
  {
    if ThrownStatus(t) == Some(401) then INVALID_CREDENTIALS else LOGIN_FAILED
  }

  /** A sign-up failure: 409 is a taken e-mail, anything else is generic. */
  function RegisterMessage(t: Thrown): (m: string)
    ensures m == EMAIL_TAKEN <==> ThrownStatus(t) == Some(409)
    ensures m == EMAIL_TAKEN || m == REGISTRATION_FAILED
  {
    if ThrownStatus(t) == Some(409) then EMAIL_TAKEN else REGISTRATION_FAILED
  }
}

=== FILE: classified_auth_service.dfy ===
/**
 * The auth service of `src/services/auth.service.ts`: the same endpoints as
 * the session controller, over the `src/api.ts` instance, writing both keys
 * on success and classifying failures; it holds no React state.
 */
module ClassifiedAuthService {
  import opened Wrappers
  import opened Js
  import opened Storage
  import opened Http
  import opened AuthErrors
  import ApiClient
  import AuthContext

  /** One service call: what it returned or threw, the store after it, and its side effects. */
  datatype Call = Call(result: Result<Value, string>, store: Store, effects: seq<Effect>)

  /** Shared success path of `login` and `register`: store `access_token` and `user`, return the payload. */
  function Persist(store: Store, d: Value, onTypeError: string): (c: Call)
    ensures Nullish(d) ==> c == Call(Failure(onTypeError), store, [])
    ensures !Nullish(d) ==>
      c == Call(Success(d), SetUser(SetToken(store, Get(d, "access_token").value), Get(d, "user").value), [])
  {
    match (Get(d, "access_token"), Get(d, "user"))
    case (Success(t), Success(u)) => Call(Success(d), SetUser(SetToken(store, t), u), [])
    case _ => Call(Failure(onTypeError), store, [])
  }

  /** `login`: on success the payload is returned unchanged and both keys are written. */
  function Login(store: Store, post: Outcome): (c: Call)
    ensures c.result.Success? <==> post.Resolved? && !Nullish(post.data)
    ensures c.result.Success? ==>
      c.result.value == post.data &&
      c.store == SetUser(SetToken(store, Get(post.data, "access_token").value), Get(post.data, "user").value)
    ensures c.result.Failure? ==> (c.result.error == INVALID_CREDENTIALS <==> IsStatus(post, 401))
    ensures c.result.Failure? ==> c.result.error == INVALID_CREDENTIALS || c.result.error == LOGIN_FAILED
    ensures c.result.Failure? && !IsStatus(post, 401) ==> c.store == store && c.effects == []
    ensures IsStatus(post, 401) ==> c.store == Purge(store) && c.effects == [HardRedirect(LOGIN_PATH)]
    ensures post.Resolved? ==> c.effects == []
  {
    var h := ApiClient.Handle(post, store);
    match h.outcome
    case Rejected(e) => Call(Failure(LoginMessage(HttpFailure(e))), h.store, h.effects)
    case Resolved(d) => Persist(store, d, LoginMessage(TypeFailure))
  }

  /** `register`: the same success path as `login`; 409 is reported as a taken e-mail. */
  function Register(store: Store, post: Outcome): (c: Call)
    ensures c.result.Success? <==> post.Resolved? && !Nullish(post.data)
    ensures c.result.Success? ==>
      c.result.value == post.data &&
      c.store == SetUser(SetToken(store, Get(post.data, "access_token").value), Get(post.data, "user").value)
    ensures c.result.Failure? ==> (c.result.error == EMAIL_TAKEN <==> IsStatus(post, 409))
    ensures c.result.Failure? ==> c.result.error == EMAIL_TAKEN || c.result.error == REGISTRATION_FAILED
    ensures c.result.Failure? && !IsStatus(post, 401) ==> c.store == store && c.effects == []
    ensures IsStatus(post, 401) ==> c.store == Purge(store) && c.effects == [HardRedirect(LOGIN_PATH)]
    ensures post.Resolved? ==> c.effects == []
  {
    var h := ApiClient.Handle(post, store);
    match h.outcome
    case Rejected(e) => Call(Failure(RegisterMessage(HttpFailure(e))), h.store, h.effects)
    case Resolved(d) => Persist(store, d, RegisterMessage(TypeFailure))
  }

  /** `logout`: removes the two session keys and nothing else. */
  function Logout(store: Store): (r: Store)
    ensures r.token.None? && r.user.None? && r.cookie == store.cookie
  {
    Purge(store)
  }

  /** `getCurrentUser`: the profile payload, or `null` on any failure; it never throws. */
  function GetCurrentUser(store: Store, profile: Outcome): (c: Call)
    ensures c.result.Success?
    ensures profile.Resolved? ==> c == Call(Success(profile.data), store, [])
    ensures profile.Rejected? ==> c.result.value == Null
    ensures profile.Rejected? ==>
      c.store == ApiClient.Handle(profile, store).store && c.effects == ApiClient.Handle(profile, store).effects
    ensures profile.Rejected? && !IsStatus(profile, 401) ==> c.store == store && c.effects == []
  {
    var h := ApiClient.Handle(profile, store);
    match h.outcome
    case Resolved(d) => Call(Success(d), h.store, h.effects)
    case Rejected(_) => Call(Success(Null), h.store, h.effects)
  }

  /**
   * A login payload without `user` stores the text "undefined" under `user`,
   * and the session controller's first render then fails to parse it.
   */
  lemma LoginWithoutUserBreaksNextStart(store: Store, post: Outcome)
    requires post.Resolved? && post.data.Obj? && "user" !in post.data.fields
    ensures Login(store, post).result.Success?
    ensures AuthContext.Initial(Login(store, post).store).Failure?
  {
  }

  /** A login payload with a user is what the session controller restores on the next start. */
  lemma LoginThenStartRestoresUser(store: Store, post: Outcome)
    requires post.Resolved? && post.data.Obj? && "user" in post.data.fields
    requires post.data.fields["user"] != Undefined
    ensures AuthContext.Initial(Login(store, post).store).Success?
    ensures AuthContext.Initial(Login(store, post).store).value.user == post.data.fields["user"]
  {
  }

  /** A registration payload with a user is what the session controller restores on the next start. */
  lemma RegisterThenStartRestoresUser(store: Store, post: Outcome)
    requires post.Resolved? && post.data.Obj? && "user" in post.data.fields
    requires post.data.fields["user"] != Undefined
    ensures AuthContext.Initial(Register(store, post).store).Success?
    ensures AuthContext.Initial(Register(store, post).store).value.user == post.data.fields["user"]
  {
  }

  /** This service's logout leaves the store exactly as the session controller's logout does. */
  lemma LogoutMatchesController(s: AuthContext.Session, store: Store)
    ensures Logout(store) == AuthContext.Logout(s, store).store
  {
  }

  /**
   * Asking for the current user is gentler than the bootstrap: a failure
   * other than 401 keeps the stored session, where the bootstrap forgets it.
   */
  lemma CurrentUserKeepsWhatBootstrapForgets(s: AuthContext.Session, store: Store, profile: Outcome)
    requires HasToken(store) && profile.Rejected? && !IsStatus(profile, 401)
    ensures GetCurrentUser(store, profile).store == store
    ensures AuthContext.InitializeAuth(s, store, profile).store.token.None?
    ensures AuthContext.InitializeAuth(s, store, profile).session.user == Null
  {
  }
}

=== FILE: cookie_client.dfy ===
/**
 * The axios instance of `src/config/axios.ts`, used by the users page: a
 * Bearer header and a `token` cookie from storage on the way out; a purge of
 * both keys and the cookie on a 401, with no redirect.
 */
module CookieClient {
  import opened Wrappers
  import opened Js
  import opened Storage
  import opened Http
  import ApiClient

  datatype Decorated = Decorated(request: Request, store: Store)

  /** The request interceptor: it also writes the `token` cookie. */
  function Decorate(req: Request, store: Store): (d: Decorated)
    ensures HasToken(store) ==> "Authorization" in d.request.headers && d.request.headers["Authorization"] == Bearer(store.token.value)
    ensures HasToken(store) ==> d.store.cookie == store.token
    ensures !HasToken(store) ==> d == Decorated(req, store)
    ensures d.request.(headers := req.headers) == req
    ensures forall k :: k != "Authorization" ==> (k in d.request.headers <==> k in req.headers)
    ensures d.store.token == store.token && d.store.user == store.user
  {
    if HasToken(store) then
      Decorated(req.(headers := req.headers["Authorization" := Bearer(store.token.value)]),
                store.(cookie := store.token))
    else Decorated(req, store)
  }

  datatype Handled = Handled(outcome: Outcome, store: Store)

  /** The response interceptor: a 401 purges both keys and expires the cookie. */
  function Handle(o: Outcome, store: Store): (h: Handled)
    ensures h.outcome == o
    ensures IsStatus(o, 401) ==> h.store == Empty
    ensures !IsStatus(o, 401) ==> h.store == store
  {
    if IsStatus(o, 401) then Handled(o, Purge(store).(cookie := None)) else Handled(o, store)
  }

  /** Whatever the store held, a 401 leaves no trace of the session behind. */
  lemma UnauthorizedForgetsEverything(o: Outcome, s1: Store, s2: Store)
    requires IsStatus(o, 401)
    ensures Handle(o, s1).store == Handle(o, s2).store
    ensures !HasToken(Handle(o, s1).store)
  {
  }

  /** On the request side this instance adds the same header as the `src/api.ts` one. */
  lemma DecorateAgreesWithApiClient(req: Request, store: Store)
    ensures Decorate(req, store).request == ApiClient.Decorate(req, store)
  {
  }
}

=== FILE: http.dfy ===
/** HTTP as the client sees it through axios: requests, outcomes, effects. */
module Http {
  import opened Wrappers
  import opened Js

  /** An axios request config. `verb` is the lower-case `method` field, as axios stores it. */
  datatype Request = Request(
    verb: string,
    url: string,
    headers: map<string, string>,
    withCredentials: bool,
    body: Value)

  datatype Response = Response(status: int, data: Value)

  /** An axios error; `response` is absent for a network failure. */
  datatype HttpError = HttpError(config: Request, response: Option<Response>)

  /** How a request settles once it leaves the client. */
  datatype Outcome = Resolved(data: Value) | Rejected(error: HttpError)

  /** What an asynchronous client operation throws. */
  datatype Thrown =
    | HttpFailure(error: HttpError)
    | TypeFailure
    | Message(text: string)

  /** The sign-in page: where every 401 handler sends the browser and where both route guards redirect. */
  const LOGIN_PATH := "/login"

  /** Side effects outside React state: a hard `window.location.href` change, or an `alert`. */
  datatype Effect = HardRedirect(path: string) | Alert(message: string)

  /** `error.response?.status`. */
  function Status(e: HttpError): Option<int> {
    if e.response.Some? then Some(e.response.value.status) else None
  }

  /** `error.response?.status` of whatever was thrown. */
  function ThrownStatus(t: Thrown): (r: Option<int>)
    ensures r.Some? ==> t.HttpFailure? && t.error.response.Some? && r.value == t.error.response.value.status
  {
    if t.HttpFailure? then Status(t.error) else None
  }

  predicate IsStatus(o: Outcome, code: int) {
    o.Rejected? && Status(o.error) == Some(code)
  }

  /** The text of an `Authorization` header for a token. */
  function Bearer(token: string): string {
    "Bearer " + token
  }

  /** `err.response?.data?.message`. */
  function ServerMessage(t: Thrown): (r: Value)
    ensures !(t.HttpFailure? && t.error.response.Some?) ==> r == Undefined
  {
    if t.HttpFailure? && t.error.response.Some? then OptGet(t.error.response.value.data, "message")
    else Undefined
  }
}

=== FILE: js.dfy ===
/**
 * JavaScript values as the client code sees them: decoded JSON payloads,
 * React state and the arguments of `localStorage.setItem`. Numbers are not
 * modelled: no field the client reads is numeric.
 */
module Js {
  import opened Wrappers

  datatype Value =
    | Undefined
    | Null
    | Bool(b: bool)
    | Str(s: string)
    | Arr(items: seq<Value>)
    | Obj(fields: map<string, Value>)

  /** `undefined` and `null`: the values on which property access throws. */
  predicate Nullish(v: Value) {
    v.Undefined? || v.Null?
  }

  /** JavaScript truthiness (`if (v)`, `!v`, `v || d`). */
  predicate Truthy(v: Value) {
    match v
    case Undefined => false
    case Null => false
    case Bool(b) => b
    case Str(s) => s != ""
    case Arr(_) => true
    case Obj(_) => true
  }

  /** Thrown by property access on `null` or `undefined`. */
  datatype TypeError = TypeError

  /**
   * Property access `v.key`: a missing property reads as `undefined`, and
   * access on a nullish value throws. Strings, arrays and booleans carry no
   * own property under any key the client reads.
   */
  function Get(v: Value, key: string): (r: Result<Value, TypeError>)
    ensures r.Failure? <==> Nullish(v)
    ensures r.Success? && r.value != Undefined ==> v.Obj? && key in v.fields && r.value == v.fields[key]
    ensures v.Obj? && key in v.fields ==> r == Success(v.fields[key])
  {
    match v
    case Undefined => Failure(TypeError)
    case Null => Failure(TypeError)
    case Obj(fields) => Success(if key in fields then fields[key] else Undefined)
    case _ => Success(Undefined)
  }

  /** Optional chaining `v?.key`: never throws. */
  function OptGet(v: Value, key: string): (r: Value)
    ensures Nullish(v) ==> r == Undefined
    ensures !Nullish(v) ==> Get(v, key) == Success(r)
  {
    if Nullish(v) then Undefined else Get(v, key).value
  }

  /**
   * The rest object of `const { key, ...rest } = v`: every own property
   * except `key`. Destructuring a nullish value throws.
   */
  function Omit(v: Value, key: string): (r: Result<Value, TypeError>)
    ensures r.Failure? <==> Nullish(v)
    ensures r.Success? ==> r.value.Obj? && key !in r.value.fields
    ensures v.Obj? ==> r.Success? && forall k :: k in v.fields && k != key ==> k in r.value.fields && r.value.fields[k] == v.fields[k]
    ensures r.Success? ==> forall k :: k in r.value.fields ==> v.Obj? && k in v.fields
  {
    match v
    case Undefined => Failure(TypeError)
    case Null => Failure(TypeError)
    case Obj(fields) => Success(Obj(fields - {key}))
    case _ => Success(Obj(map[]))
  }

  /** `String(v)`, also what a template literal and `setItem` produce. */
  function ToText(v: Value): (r: string)
    ensures v.Str? ==> r == v.s
    ensures v == Undefined ==> r == "undefined"
    ensures v == Null ==> r == "null"
    ensures v.Bool? ==> r == (if v.b then "true" else "false")
    ensures v.Obj? ==> r == "[object Object]"
    ensures v.Arr? && |v.items| == 0 ==> r == ""
    decreases v
  {
    match v
    case Undefined => "undefined"
    case Null => "null"
    case Bool(b) => if b then "true" else "false"
    case Str(s) => s
    case Obj(_) => "[object Object]"
    case Arr(items) =>
      JoinComma(seq(|items|, i requires 0 <= i < |items| =>
        if Nullish(items[i]) then "" else ToText(items[i])))
  }

  /** `Array.prototype.join(",")` over already converted elements. */
  function JoinComma(parts: seq<string>): string {
    if |parts| == 0 then ""
    else if |parts| == 1 then parts[0]
    else parts[0] + "," + JoinComma(parts[1..])
  }
}

=== FILE: login_page.dfy ===
/** The sign-in form of `src/pages/LoginPage.tsx`. */
module LoginPage {
  import opened Wrappers
  import opened Js
  import opened Routing
  import AuthErrors
  import Http

  const FALLBACK_ERROR := "An error occurred during login"

  datatype Form = Form(email: string, password: string, error: string, loading: bool)

  const Initial := Form("", "", "", false)

  /** Where to go after signing in: `location.state.from.pathname`, or home. */
  function From(state: NavState): (r: string)
    ensures state.FromState? && state.from.pathname != "" ==> r == state.from.pathname
    ensures !(state.FromState? && state.from.pathname != "") ==> r == "/"
    ensures r != ""
  {
    if state.FromState? && state.from.pathname != "" then state.from.pathname else "/"
  }

  /** A submission: the state while the call is pending, the final state, whether `login` ran, and the navigation. */
  datatype Submitted = Submitted(pending: Form, final: Form, called: bool, nav: Option<Nav>)

  /** `handleSubmit`, driven by how the session controller's `login` settled. */
  function Submit(f: Form, from: string, login: Result<(), string>): (r: Submitted)
    ensures f.loading ==> r == Submitted(f, f, false, None)
    ensures !f.loading ==> r.called && r.pending == f.(error := "", loading := true)
    ensures !f.loading ==> !r.final.loading && r.final.email == f.email && r.final.password == f.password
    ensures !f.loading && login.Success? ==> r.nav == Some(Nav(from, true)) && r.final.error == ""
    ensures !f.loading && login.Failure? ==>
      r.nav.None? &&
      r.final.error == (if login.error != "" then login.error else FALLBACK_ERROR)
  {
    if f.loading then Submitted(f, f, false, None)
    else
      var pending := f.(error := "", loading := true);
      match login
      case Success(_) => Submitted(pending, pending.(loading := false), true, Some(Nav(from, true)))
      case Failure(m) =>
        Submitted(pending, pending.(error := if m != "" then m else FALLBACK_ERROR, loading := false), true, None)
  }

  /** A second submission while the first is pending does nothing. */
  lemma DoubleSubmitIgnored(f: Form, from: string, first: Result<(), string>, second: Result<(), string>)
    requires !f.loading
    ensures var p := Submit(f, from, first).pending;
            Submit(p, from, second) == Submitted(p, p, false, None)
  {
  }

  /** Every message the session controller throws is shown as is; the fallback text never appears. */
  lemma ControllerMessagesShownVerbatim(f: Form, from: string, t: Http.Thrown)
    requires !f.loading
    ensures Submit(f, from, Failure(AuthErrors.LoginMessage(t))).final.error == AuthErrors.LoginMessage(t)
    ensures Submit(f, from, Failure(AuthErrors.LoginMessage(t))).final.error != FALLBACK_ERROR
  {
  }

  /** A visitor stopped by `ProtectedRoute` returns to the page they asked for after signing in. */
  lemma ProtectedRouteRoundTrip<T>(user: Value, location: Location, children: T)
    requires !Truthy(user) && location.pathname != ""
    ensures ProtectedRoute(user, false, location, children).Redirect?
    ensures From(ProtectedRoute(user, false, location, children).state) == location.pathname
  {
  }
}

=== FILE: refreshing_client.dfy ===
/**
 * The axios instance of `src/services/axiosInstance.ts`, used by the
 * token-only auth service: credentials on every request, pre-flight headers
 * on OPTIONS, one refresh-and-retry on a 401, and alerts on 500 and 403.
 */
module RefreshingClient {
  import opened Wrappers
  import opened Js
  import opened Storage
  import opened Http

  const PREFLIGHT_HEADERS := "Content-Type, Authorization"
  const SERVER_ERROR_ALERT := "Server error, please try again later."
  /** The text as the file spells it: the apostrophe was saved double-encoded. */
  const FORBIDDEN_ALERT := "Access forbidden. You don\U{E2}\U{20AC}\U{2122}t have permission to access this resource."

  /** A request carrying the instance defaults (JSON content type and accept, credentials). */
  function NewRequest(verb: string, url: string, body: Value): (r: Request)
    ensures r.verb == verb && r.url == url && r.body == body && r.withCredentials
    ensures r.headers == map["Content-Type" := "application/json", "Accept" := "application/json"]
  {
    Request(verb, url, map["Content-Type" := "application/json", "Accept" := "application/json"], true, body)
  }

  /** The request interceptor. */
  function Decorate(req: Request): (r: Request)
    ensures r.withCredentials
    ensures r.verb == req.verb && r.url == req.url && r.body == req.body
    ensures req.verb == "options" ==>
      r.headers == req.headers["Access-Control-Request-Method" := "options"]["Access-Control-Request-Headers" := PREFLIGHT_HEADERS]
    ensures req.verb != "options" ==> r.headers == req.headers
  {
    var headers :=
      if req.verb == "options" then
        req.headers["Access-Control-Request-Method" := req.verb]["Access-Control-Request-Headers" := PREFLIGHT_HEADERS]
      else req.headers;
    req.(withCredentials := true, headers := headers)
  }

  /**
   * `refreshToken()`: `response.data.token` once the refresh POST resolves,
   * `null` when it rejects or its payload is nullish. It never throws.
   */
  function RefreshToken(refresh: Outcome): (t: Value)
    ensures refresh.Rejected? ==> t == Null
    ensures refresh.Resolved? && !Nullish(refresh.data) ==> Get(refresh.data, "token") == Success(t)
    ensures refresh.Resolved? && Nullish(refresh.data) ==> t == Null
  {
    match refresh
    case Rejected(_) => Null
    case Resolved(data) =>
      match Get(data, "token")
      case Success(v) => v
      case Failure(_) => Null
  }

  /** What the error handler does: its settled outcome, the retried request if any, and effects. */
  datatype Handled = Handled(outcome: Outcome, retried: Option<Request>, effects: seq<Effect>)

  /**
   * A request the error handler itself issues (the refresh POST, the retry):
   * both go through this same instance, so each comes back with the effects
   * its own pass through the response interceptor raised.
   */
  datatype Nested = Nested(outcome: Outcome, effects: seq<Effect>)

  /** Some alert among the effects. */
  predicate HasAlert(effects: seq<Effect>) {
    exists i :: 0 <= i < |effects| && effects[i].Alert?
  }

  /** The alert for a status, if any (500 and 403 only). */
  function AlertFor(e: HttpError): (r: seq<Effect>)
    ensures Status(e) == Some(500) ==> r == [Alert(SERVER_ERROR_ALERT)]
    ensures Status(e) == Some(403) ==> r == [Alert(FORBIDDEN_ALERT)]
    ensures Status(e) != Some(500) && Status(e) != Some(403) ==> r == []
  {
    if Status(e) == Some(500) then [Alert(SERVER_ERROR_ALERT)]
    else if Status(e) == Some(403) then [Alert(FORBIDDEN_ALERT)]
    else []
  }

  /**
   * The error handler. `refresh` is how the refresh POST settled and what it
   * raised on its way back; `retry` is the same for the retried request. Both
   * are abstract: they re-enter this handler, which the model does not unfold.
   */
  function HandleError(e: HttpError, refresh: Nested, retry: Nested): (h: Handled)
    ensures Status(e) == Some(401) && Truthy(RefreshToken(refresh.outcome)) ==>
      h.outcome == retry.outcome && h.effects == refresh.effects + retry.effects && h.retried.Some? &&
      h.retried.value.headers == Decorate(e.config).headers["Authorization" := Bearer(ToText(RefreshToken(refresh.outcome)))] &&
      h.retried.value.withCredentials
    ensures Status(e) == Some(401) && Truthy(RefreshToken(refresh.outcome)) ==>
      h.retried.Some? && h.retried.value.verb == e.config.verb &&
      h.retried.value.url == e.config.url && h.retried.value.body == e.config.body
    ensures !(Status(e) == Some(401) && Truthy(RefreshToken(refresh.outcome))) ==> h.outcome == Rejected(e) && h.retried.None?
    ensures Status(e) == Some(401) && !Truthy(RefreshToken(refresh.outcome)) ==>
      h.effects == refresh.effects + [HardRedirect(LOGIN_PATH)]
    ensures Status(e) != Some(401) ==> h.effects == AlertFor(e)
  {
    if Status(e) == Some(401) then
      var t := RefreshToken(refresh.outcome);
      if Truthy(t) then
        var config := e.config.(headers := e.config.headers["Authorization" := Bearer(ToText(t))]);
        Handled(retry.outcome, Some(Decorate(config)), refresh.effects + retry.effects)
      else
        Handled(Rejected(e), None, refresh.effects + [HardRedirect(LOGIN_PATH)] + AlertFor(e))
    else
      Handled(Rejected(e), None, AlertFor(e))
  }

  /** The response interceptor as a whole: successes pass through untouched. */
  function Handle(o: Outcome, refresh: Nested, retry: Nested): (h: Handled)
    ensures o.Resolved? ==> h == Handled(o, None, [])
    ensures o.Rejected? ==> h == HandleError(o.error, refresh, retry)
  {
    match o
    case Resolved(_) => Handled(o, None, [])
    case Rejected(e) => HandleError(e, refresh, retry)
  }

  /** A failure is swallowed only by a successful retry; otherwise the original error comes back. */
  lemma NeverSwallowed(e: HttpError, refresh: Nested, retry: Nested)
    ensures HandleError(e, refresh, retry).outcome == Rejected(e)
         || (Status(e) == Some(401) && HandleError(e, refresh, retry).outcome == retry.outcome)
  {
  }

  /**
   * An alert is raised exactly for a 500 or a 403, whether it is the
   * original response or that of the refresh POST or the retry a 401 issues.
   */
  lemma {:induction false} AlertsOnlyFor500And403(e: HttpError, refresh: Nested, retry: Nested)
    ensures HasAlert(HandleError(e, refresh, retry).effects) <==>
      (Status(e) == Some(500) || Status(e) == Some(403)
       || (Status(e) == Some(401) && HasAlert(refresh.effects))
       || (Status(e) == Some(401) && Truthy(RefreshToken(refresh.outcome)) && HasAlert(retry.effects)))
  {
    var h := HandleError(e, refresh, retry);
    if Status(e) == Some(500) || Status(e) == Some(403) {
      assert h.effects[0].Alert?;
    } else if Status(e) == Some(401) {
      if Truthy(RefreshToken(refresh.outcome)) {
        AlertsOfConcat(refresh.effects, retry.effects);
      } else {
        assert h.effects == refresh.effects + [HardRedirect(LOGIN_PATH)];
        AlertsOfConcat(refresh.effects, [HardRedirect(LOGIN_PATH)]);
      }
    }
  }

  /** An alert occurs in a concatenation exactly when it occurs in one of the parts. */
  lemma AlertsOfConcat(a: seq<Effect>, b: seq<Effect>)
    ensures HasAlert(a + b) <==> HasAlert(a) || HasAlert(b)
  {
    if HasAlert(a + b) {
      var i :| 0 <= i < |a + b| && (a + b)[i].Alert?;
      if i >= |a| {
        assert b[i - |a|].Alert?;
      }
    }
    if HasAlert(a) {
      var j :| 0 <= j < |a| && a[j].Alert?;
      assert (a + b)[j].Alert?;
    }
    if HasAlert(b) {
      var j :| 0 <= j < |b| && b[j].Alert?;
      assert (a + b)[|a| + j].Alert?;
    }
  }

  /** Decorating twice adds nothing. */
  lemma DecorateIdempotent(req: Request)
    ensures Decorate(Decorate(req)) == Decorate(req)
  {
  }

  /** A refresh payload with a non-empty `token` string becomes the retried request's Bearer header. */
  lemma RefreshedRetryCarriesToken(e: HttpError, data: map<string, Value>, token: string, refreshEffects: seq<Effect>, retry: Nested)
    requires Status(e) == Some(401) && "token" in data && data["token"] == Str(token) && token != ""
    ensures var h := HandleError(e, Nested(Resolved(Obj(data)), refreshEffects), retry);
      h.retried.Some? && h.retried.value.headers["Authorization"] == Bearer(token)
  {
  }
}

=== FILE: routing.dfy ===
/**
 * Route guards of `src/components/ProtectedRoute.tsx` and
 * `src/components/RequireAuth.tsx`, with the react-router values they
 * produce.
 */
module Routing {
  import opened Js
  import Http

  datatype Location = Location(pathname: string, search: string, hash: string)

  /** The `state` a `<Navigate>` attaches to the next location. */
  datatype NavState = NoState | FromState(from: Location)

  /** A `navigate(to, { replace })` call. */
  datatype Nav = Nav(to: string, replace: bool)

  /** What a guard renders: its children, a waiting indicator, or a `<Navigate>`. */
  datatype Decision<T> = Render(content: T) | Wait | Redirect(to: string, replace: bool, state: NavState)

  /** `ProtectedRoute`: waits while loading, then lets a user through or sends a visitor to sign in. */
  function ProtectedRoute<T(==)>(user: Value, loading: bool, location: Location, children: T): (d: Decision<T>)
    ensures d.Wait? <==> loading
    ensures d.Render? <==> !loading && Truthy(user)
    ensures d.Render? ==> d.content == children
    ensures d.Redirect? ==> d == Redirect(Http.LOGIN_PATH, true, FromState(location))
  {
    if loading then Wait
    else if !Truthy(user) then Redirect(Http.LOGIN_PATH, true, FromState(location))
    else Render(children)
  }

  /** `RequireAuth`: looks at the user only, and remembers nothing of where the visitor was going. */
  function RequireAuth<T(==)>(user: Value, children: T): (d: Decision<T>)
    ensures !d.Wait?
    ensures d.Render? <==> Truthy(user)
    ensures d.Render? ==> d.content == children
    ensures d.Redirect? ==> d == Redirect(Http.LOGIN_PATH, true, NoState)
  {
    if !Truthy(user) then Redirect(Http.LOGIN_PATH, true, NoState) else Render(children)
  }

  /** Once loading is over the two guards agree on who gets in; they differ only in the state carried along. */
  lemma GuardsAgreeOnceLoaded<T>(user: Value, location: Location, children: T)
    ensures ProtectedRoute(user, false, location, children).Render? <==> RequireAuth(user, children).Render?
    ensures RequireAuth(user, children).Redirect? ==>
      ProtectedRoute(user, false, location, children) ==
        RequireAuth(user, children).(state := FromState(location))
  {
  }
}

=== FILE: signup_page.dfy ===
/** The sign-up form of `src/pages/SignupPage.tsx`. */
module SignupPage {
  import opened Wrappers
  import opened Js
  import opened Routing
  import AuthContext

  const FALLBACK_ERROR := "Registration failed. Please try again."

  datatype Form = Form(name: string, email: string, password: string, role: string, error: string, loading: bool)

  /** A fresh form: every field empty, role `user`. */
  const Initial := Form("", "", "", "user", "", false)

  /** The four arguments `handleSubmit` passes to `register`. */
  datatype RegisterCall = RegisterCall(name: string, email: string, password: string, role: string)

  datatype Submitted = Submitted(pending: Form, final: Form, call: RegisterCall, nav: Option<Nav>)

  /** `handleSubmit`: unlike the sign-in form it has no guard against a pending submission. */
  function Submit(f: Form, register: Result<(), string>): (r: Submitted)
    ensures r.pending == f.(error := "", loading := true)
    ensures r.call == RegisterCall(f.name, f.email, f.password, f.role)
    ensures !r.final.loading && r.final.role == f.role && r.final.name == f.name
    ensures r.final.email == f.email && r.final.password == f.password
    ensures register.Success? ==> r.nav == Some(Nav("/", false)) && r.final.error == ""
    ensures register.Failure? ==>
      r.nav.None? &&
      r.final.error == (if register.error != "" then register.error else FALLBACK_ERROR)
  {
    var pending := f.(error := "", loading := true);
    var call := RegisterCall(f.name, f.email, f.password, f.role);
    match register
    case Success(_) => Submitted(pending, pending.(loading := false), call, Some(Nav("/", false)))
    case Failure(m) =>
      Submitted(pending, pending.(error := if m != "" then m else FALLBACK_ERROR, loading := false), call, None)
  }

  /**
   * The request body the session controller builds from the call: its
   * `register` takes three parameters, so the role is dropped.
   */
  function RequestBody(call: RegisterCall): (b: Value)
    ensures b.Obj? && "role" !in b.fields
    ensures b.fields.Keys == {"name", "email", "password"}
  {
    AuthContext.RegisterBody(call.name, call.email, call.password)
  }

  /** Whichever role is selected, the same request is sent. */
  lemma RoleNeverSent(f: Form, role: string, register: Result<(), string>)
    ensures RequestBody(Submit(f, register).call) == RequestBody(Submit(f.(role := role), register).call)
  {
  }
}

=== FILE: storage.dfy ===
/**
 * The browser-side session store: the `token` and `user` keys of
 * `localStorage`, and the `token` cookie as a third key.
 */
module Storage {
  import opened Wrappers
  import opened Js

  /**
   * A stored string. `JsonText(v)` is the output of `JSON.stringify(v)`;
   * `Raw(s)` is any other text, which `JSON.parse` rejects.
   */
  datatype Text = Raw(s: string) | JsonText(v: Value)

  datatype Store = Store(token: Option<string>, user: Option<Text>, cookie: Option<string>)

  const Empty := Store(None, None, None)

  /** Thrown by `JSON.parse` on text that is not JSON. */
  datatype ParseError = ParseError

  /** `localStorage.getItem('token')` is truthy: present and non-empty. */
  predicate HasToken(store: Store) {
    store.token.Some? && store.token.value != ""
  }

  /** Truthiness of a stored string. A JSON text is never empty. */
  predicate TextTruthy(t: Text) {
    t.JsonText? || t.s != ""
  }

  /**
   * `localStorage.setItem(key, JSON.stringify(v))`: `JSON.stringify(undefined)`
   * is `undefined`, which `setItem` writes as the string "undefined".
   */
  function Serialize(v: Value): (t: Text)
    ensures t.JsonText? <==> v != Undefined
    ensures TextTruthy(t)
  {
    if v == Undefined then Raw("undefined") else JsonText(v)
  }

  /** `JSON.parse` of a stored string. */
  function Parse(t: Text): Result<Value, ParseError> {
    match t
    case JsonText(v) => Success(v)
    case Raw(_) => Failure(ParseError)
  }

  /** `setItem('token', v)` stores `String(v)`. */
  function SetToken(store: Store, v: Value): (r: Store)
    ensures r.token == Some(ToText(v)) && r.user == store.user && r.cookie == store.cookie
  {
    store.(token := Some(ToText(v)))
  }

  /** `setItem('user', JSON.stringify(v))`. */
  function SetUser(store: Store, v: Value): (r: Store)
    ensures r.user == Some(Serialize(v)) && r.token == store.token && r.cookie == store.cookie
  {
    store.(user := Some(Serialize(v)))
  }

  /** `removeItem('token')` followed by `removeItem('user')`. */
  function Purge(store: Store): (r: Store)
    ensures r.token.None? && r.user.None? && r.cookie == store.cookie
    ensures !HasToken(r)
  {
    store.(token := None, user := None)
  }

  /** Reading back what was serialised gives the value, except for `undefined`. */
  lemma ParseSerialize(v: Value)
    ensures Parse(Serialize(v)).Success? <==> v != Undefined
    ensures v != Undefined ==> Parse(Serialize(v)) == Success(v)
  {
  }

  /** Purging is idempotent. */
  lemma PurgeIdempotent(store: Store)
    ensures Purge(Purge(store)) == Purge(store)
  {
  }
}

=== FILE: todo_list.dfy ===
/**
 * The to-do list of `src/components/TodoList.tsx`. The to-do service is
 * opaque: each call either yields its value or throws.
 */
module TodoList {
  import opened Wrappers

  datatype Todo = Todo(id: string, title: string, description: string, completed: bool)

  datatype View = View(todos: seq<Todo>, loading: bool, error: Option<string>, editing: Option<Todo>)

  const Initial := View([], true, None, None)

  const LOAD_FAILED := "Failed to load todos"
  const DELETE_FAILED := "Failed to delete todo"
  const UPDATE_FAILED := "Failed to update todo"

  /** `loadTodos`: adopt the fetched list, or report the failure; loading ends either way. */
  function LoadTodos(v: View, fetched: Result<seq<Todo>, string>): (r: View)
    ensures !r.loading && r.editing == v.editing
    ensures fetched.Success? ==> r.todos == fetched.value && r.error.None?
    ensures fetched.Failure? ==> r.todos == v.todos && r.error == Some(LOAD_FAILED)
  {
    match fetched
    case Success(todos) => v.(todos := todos, error := None, loading := false)
    case Failure(_) => v.(error := Some(LOAD_FAILED), loading := false)
  }

  /** `todos.filter(todo => todo._id !== id)`. */
  function WithoutId(todos: seq<Todo>, id: string): (r: seq<Todo>)
    ensures forall t :: t in r <==> t in todos && t.id != id
    ensures |r| <= |todos|
  {
    if |todos| == 0 then []
    else
      (if todos[0].id == id then [] else [todos[0]]) + WithoutId(todos[1..], id)
  }

  /** The filter keeps each to-do of another id as often as it occurred, and none of that id. */
  lemma {:induction false} WithoutIdCounts(todos: seq<Todo>, id: string, t: Todo)
    ensures multiset(WithoutId(todos, id))[t] == if t.id == id then 0 else multiset(todos)[t]
  {
    if |todos| > 0 {
      assert todos == [todos[0]] + todos[1..];
      WithoutIdCounts(todos[1..], id, t);
    }
  }

  /** Filtering distributes over concatenation: the kept to-dos stay in their order. */
  lemma {:induction false} WithoutIdAppend(a: seq<Todo>, b: seq<Todo>, id: string)
    ensures WithoutId(a + b, id) == WithoutId(a, id) + WithoutId(b, id)
  {
    if |a| == 0 {
      assert a + b == b;
    } else {
      assert (a + b)[1..] == a[1..] + b;
      WithoutIdAppend(a[1..], b, id);
    }
  }

  /** A list with no to-do of that id is left exactly as it was. */
  lemma {:induction false} WithoutAbsentId(todos: seq<Todo>, id: string)
    requires forall t :: t in todos ==> t.id != id
    ensures WithoutId(todos, id) == todos
  {
    if |todos| > 0 {
      WithoutAbsentId(todos[1..], id);
    }
  }

  /** Deleting the same id twice is the same as deleting it once. */
  lemma WithoutIdIdempotent(todos: seq<Todo>, id: string)
    ensures WithoutId(WithoutId(todos, id), id) == WithoutId(todos, id)
  {
    WithoutAbsentId(WithoutId(todos, id), id);
  }

  /** `handleDelete`: drop the deleted to-do, or report the failure and keep the list. */
  function Delete(v: View, id: string, deleted: Result<(), string>): (r: View)
    ensures deleted.Success? ==> r == v.(todos := WithoutId(v.todos, id))
    ensures deleted.Failure? ==> r == v.(error := Some(DELETE_FAILED))
  {
    match deleted
    case Success(_) => v.(todos := WithoutId(v.todos, id))
    case Failure(_) => v.(error := Some(DELETE_FAILED))
  }

  /** `todos.map(t => t._id === id ? updated : t)`. */
  function ReplaceById(todos: seq<Todo>, id: string, updated: Todo): (r: seq<Todo>)
    ensures |r| == |todos|
    ensures forall i :: 0 <= i < |todos| ==> r[i] == (if todos[i].id == id then updated else todos[i])
  {
    if |todos| == 0 then []
    else [if todos[0].id == id then updated else todos[0]] + ReplaceById(todos[1..], id, updated)
  }

  /** The body of the update request a completion toggle sends. */
  datatype UpdateRequest = UpdateRequest(id: string, completed: bool)

  datatype Toggled = Toggled(view: View, request: UpdateRequest)

  /** `handleToggleComplete`: ask for the flipped flag, then adopt the server's to-do. */
  function ToggleComplete(v: View, todo: Todo, updated: Result<Todo, string>): (r: Toggled)
    ensures r.request == UpdateRequest(todo.id, !todo.completed)
    ensures updated.Success? ==> r.view == v.(todos := ReplaceById(v.todos, todo.id, updated.value))
    ensures updated.Failure? ==> r.view == v.(error := Some(UPDATE_FAILED))
  {
    var request := UpdateRequest(todo.id, !todo.completed);
    match updated
    case Success(t) => Toggled(v.(todos := ReplaceById(v.todos, todo.id, t)), request)
    case Failure(_) => Toggled(v.(error := Some(UPDATE_FAILED)), request)
  }

  /** `handleEdit` and `handleCancelEdit`. */
  function Edit(v: View, todo: Todo): (r: View)
    ensures r.editing == Some(todo) && r.todos == v.todos
  {
    v.(editing := Some(todo))
  }

  function CancelEdit(v: View): (r: View)
    ensures r.editing.None? && r.todos == v.todos
  {
    v.(editing := None)
  }

  /** The edit form's `onUpdate`: close the editor and reload the list. */
  function FinishEdit(v: View, fetched: Result<seq<Todo>, string>): (r: View)
    ensures r.editing.None? && !r.loading
    ensures fetched.Success? ==> r.todos == fetched.value && r.error.None?
    ensures fetched.Failure? ==> r.todos == v.todos && r.error == Some(LOAD_FAILED)
  {
    LoadTodos(CancelEdit(v), fetched)
  }

  datatype Screen = LoadingScreen | ErrorScreen(message: string) | ListScreen(todos: seq<Todo>)

  /** What the component shows: loading first, then an error, then the list. */
  function Render(v: View): (r: Screen)
    ensures v.loading <==> r.LoadingScreen?
    ensures !v.loading && v.error.Some? && v.error.value != "" ==> r == ErrorScreen(v.error.value)
    ensures r.ListScreen? <==> !v.loading && (v.error.None? || v.error.value == "")
    ensures r.ListScreen? ==> r.todos == v.todos
  {
    if v.loading then LoadingScreen
    else if v.error.Some? && v.error.value != "" then ErrorScreen(v.error.value)
    else ListScreen(v.todos)
  }

  /** A failed delete or update replaces the whole list on screen by its message. */
  lemma FailedMutationHidesList(v: View, id: string, todo: Todo, e: string)
    requires !v.loading
    ensures Render(Delete(v, id, Failure(e))) == ErrorScreen(DELETE_FAILED)
    ensures Render(ToggleComplete(v, todo, Failure(e)).view) == ErrorScreen(UPDATE_FAILED)
  {
  }

  /** Only a successful reload brings the list back after an error. */
  lemma ReloadClearsError(v: View, todos: seq<Todo>)
    ensures Render(LoadTodos(v, Success(todos))) == ListScreen(todos)
  {
  }
}

=== FILE: token_auth_service.dfy ===
/**
 * The auth service of `src/services/authService.ts`: over the refreshing
 * `src/services/axiosInstance.ts` instance, it keeps only `token` in the
 * store and lets failures through unclassified.
 */
module TokenAuthService {
  import opened Wrappers
  import opened Js
  import opened Storage
  import opened Http
  import RefreshingClient
  import AuthContext
  import ClassifiedAuthService

  /** One service call: the request it sent, what it returned or threw, the store after it, and the interceptor's effects. */
  datatype Call = Call(request: Request, result: Result<Value, Thrown>, store: Store, effects: seq<Effect>)

  /** A POST of this instance as it leaves the client. */
  function Post(url: string, body: Value): (r: Request)
    ensures r.verb == "post" && r.url == url && r.body == body && r.withCredentials
    ensures r.headers == RefreshingClient.NewRequest("post", url, body).headers
  {
    RefreshingClient.Decorate(RefreshingClient.NewRequest("post", url, body))
  }

  /**
   * `login` and `register` share their body: POST, then store `data.token`.
   * `post` is the first settlement; `refresh` and `retry` feed the 401 path
   * of the response interceptor, with the effects they raised on their own way back.
   */
  function PostAndStoreToken(store: Store, url: string, body: Value, post: Outcome, refresh: RefreshingClient.Nested, retry: RefreshingClient.Nested): (c: Call)
    ensures c.request == Post(url, body)
    ensures var h := RefreshingClient.Handle(post, refresh, retry);
      && c.effects == h.effects
      && (h.outcome.Rejected? ==> c.result == Failure(HttpFailure(h.outcome.error)) && c.store == store)
      && (h.outcome.Resolved? && Nullish(h.outcome.data) ==> c.result == Failure(TypeFailure) && c.store == store)
      && (h.outcome.Resolved? && !Nullish(h.outcome.data) ==>
            c.result == Success(h.outcome.data) &&
            c.store == SetToken(store, Get(h.outcome.data, "token").value))
    ensures c.store.user == store.user && c.store.cookie == store.cookie
  {
    var req := Post(url, body);
    var h := RefreshingClient.Handle(post, refresh, retry);
    match h.outcome
    case Rejected(e) => Call(req, Failure(HttpFailure(e)), store, h.effects)
    case Resolved(d) =>
      match Get(d, "token")
      case Success(t) => Call(req, Success(d), SetToken(store, t), h.effects)
      case Failure(_) => Call(req, Failure(TypeFailure), store, h.effects)
  }

  /** `login`: the credentials go to `/auth/login`. */
  function Login(store: Store, email: string, password: string, post: Outcome, refresh: RefreshingClient.Nested, retry: RefreshingClient.Nested): (c: Call)
    ensures c.request.url == "/auth/login" && c.request.body == AuthContext.LoginBody(email, password)
    ensures c.store.user == store.user
    ensures post.Rejected? && Status(post.error) != Some(401) ==> c.result == Failure(HttpFailure(post.error)) && c.store == store
    ensures post.Resolved? && !Nullish(post.data) ==>
      c.result == Success(post.data) && c.store == SetToken(store, Get(post.data, "token").value)    ensures c.effects == RefreshingClient.Handle(post, refresh, retry).effects
    ensures c.result.Failure? ==> c.store == store
    ensures post.Resolved? && Nullish(post.data) ==> c.result == Failure(TypeFailure)
    ensures IsStatus(post, 401) && RefreshingClient.Handle(post, refresh, retry).outcome.Rejected? ==>
      c.result == Failure(HttpFailure(RefreshingClient.Handle(post, refresh, retry).outcome.error))
    ensures IsStatus(post, 401) && RefreshingClient.Handle(post, refresh, retry).outcome.Resolved? ==>
      var d := RefreshingClient.Handle(post, refresh, retry).outcome.data;
      (Nullish(d) ==> c.result == Failure(TypeFailure)) &&
      (!Nullish(d) ==> c.result == Success(d) && c.store == SetToken(store, Get(d, "token").value))
  {
    PostAndStoreToken(store, "/auth/login", AuthContext.LoginBody(email, password), post, refresh, retry)
  }

  /** `register`: the new account goes to `/auth/register`. */
  function Register(store: Store, name: string, email: string, password: string, post: Outcome, refresh: RefreshingClient.Nested, retry: RefreshingClient.Nested): (c: Call)
    ensures c.request.url == "/auth/register" && c.request.body == AuthContext.RegisterBody(name, email, password)
    ensures c.store.user == store.user
    ensures post.Rejected? && Status(post.error) != Some(401) ==> c.result == Failure(HttpFailure(post.error)) && c.store == store
    ensures post.Resolved? && !Nullish(post.data) ==>
      c.result == Success(post.data) && c.store == SetToken(store, Get(post.data, "token").value)    ensures c.effects == RefreshingClient.Handle(post, refresh, retry).effects
    ensures c.result.Failure? ==> c.store == store
    ensures post.Resolved? && Nullish(post.data) ==> c.result == Failure(TypeFailure)
    ensures IsStatus(post, 401) && RefreshingClient.Handle(post, refresh, retry).outcome.Rejected? ==>
      c.result == Failure(HttpFailure(RefreshingClient.Handle(post, refresh, retry).outcome.error))
    ensures IsStatus(post, 401) && RefreshingClient.Handle(post, refresh, retry).outcome.Resolved? ==>
      var d := RefreshingClient.Handle(post, refresh, retry).outcome.data;
      (Nullish(d) ==> c.result == Failure(TypeFailure)) &&
      (!Nullish(d) ==> c.result == Success(d) && c.store == SetToken(store, Get(d, "token").value))
  {
    PostAndStoreToken(store, "/auth/register", AuthContext.RegisterBody(name, email, password), post, refresh, retry)
  }

  /** `logout`: removes `token` only. */
  function Logout(store: Store): (r: Store)
    ensures r.token.None? && r.user == store.user && r.cookie == store.cookie
  {
    store.(token := None)
  }

  /** The `GET /auth/me` request as it leaves the client. */
  function MeRequest(): (r: Request)
    ensures r.verb == "get" && r.url == "/auth/me" && r.withCredentials && r.body == Undefined
    ensures r.headers == RefreshingClient.NewRequest("get", "/auth/me", Undefined).headers
  {
    RefreshingClient.Decorate(RefreshingClient.NewRequest("get", "/auth/me", Undefined))
  }

  /** What `getCurrentUser` resolves to, with the interceptor's effects on the way. */
  datatype Current = Current(user: Value, effects: seq<Effect>)

  /** `getCurrentUser`: the payload of `/auth/me` after interception, or `null`; it never throws. */
  function GetCurrentUser(me: Outcome, refresh: RefreshingClient.Nested, retry: RefreshingClient.Nested): (r: Current)
    ensures var h := RefreshingClient.Handle(me, refresh, retry);
      && r.effects == h.effects
      && (h.outcome.Resolved? ==> r.user == h.outcome.data)
      && (h.outcome.Rejected? ==> r.user == Null)
    ensures me.Resolved? ==> r == Current(me.data, [])
    ensures me.Rejected? && Status(me.error) != Some(401) ==> r.user == Null
    ensures me.Rejected? && Status(me.error) == Some(401) && Truthy(RefreshingClient.RefreshToken(refresh.outcome))
      ==> (retry.outcome.Resolved? ==> r.user == retry.outcome.data)
  {
    var h := RefreshingClient.Handle(me, refresh, retry);
    match h.outcome
    case Resolved(d) => Current(d, h.effects)
    case Rejected(_) => Current(Null, h.effects)
  }

  /**
   * A successful sign-in or sign-up of this service changes only the token
   * the session controller starts with next time: the user it restores is
   * whatever was stored before.
   */
  lemma PostThenStartKeepsUser(store: Store, url: string, body: Value, post: Outcome, refresh: RefreshingClient.Nested, retry: RefreshingClient.Nested)
    requires post.Resolved? && !Nullish(post.data)
    ensures var c := PostAndStoreToken(store, url, body, post, refresh, retry);
      && (AuthContext.Initial(c.store).Success? <==> AuthContext.Initial(store).Success?)
      && (AuthContext.Initial(c.store).Success? ==>
            AuthContext.Initial(c.store).value.token == Str(ToText(OptGet(post.data, "token"))) &&
            AuthContext.Initial(c.store).value.user == AuthContext.Initial(store).value.user)
  {
  }

  /**
   * Away from a 401, this service and the classified one report the same
   * current user for the same response.
   */
  lemma CurrentUserAgreesAcrossServices(store: Store, me: Outcome, refresh: RefreshingClient.Nested, retry: RefreshingClient.Nested)
    requires !IsStatus(me, 401)
    ensures GetCurrentUser(me, refresh, retry).user == ClassifiedAuthService.GetCurrentUser(store, me).result.value
  {
  }

  /**
   * This logout keeps a stored user, and without a token the session
   * controller never checks it: the next start is still signed in.
   */
  lemma LogoutKeepsUserSignedIn(store: Store, profile: Outcome)
    requires store.user.Some? && store.user.value.JsonText? && Truthy(store.user.value.v)
    ensures AuthContext.Initial(Logout(store)).Success?
    ensures var r := AuthContext.InitializeAuth(AuthContext.Initial(Logout(store)).value, Logout(store), profile);
            Truthy(r.session.user) && r.requests == []
  {
  }
}

=== FILE: users_page.dfy ===
/**
 * The admin page of `src/pages/UsersPage.tsx`. Its requests go through the
 * `src/config/axios.ts` instance; the store side of that instance is in
 * `CookieClient`, and the page state is modelled here.
 */
module UsersPage {
  import opened Wrappers
  import opened Js
  import opened Http

  datatype View = View(users: seq<Value>, loading: bool, error: Value, showConfirm: bool, selected: Value)

  const Initial := View([], true, Str(""), false, Null)

  const SELF_DEACTIVATION := "You cannot deactivate your own admin account"
  const FETCH_FAILED := "Failed to fetch users"
  const TOGGLE_FAILED := "Failed to toggle user status"

  /** `user?.role === 'admin'`. */
  predicate IsAdmin(user: Value)
    ensures IsAdmin(user) <==> user.Obj? && "role" in user.fields && user.fields["role"] == Str("admin")
  {
    OptGet(user, "role") == Str("admin")
  }

  /** `err.response?.data?.message || fallback`. */
  function ErrorText(t: Thrown, fallback: string): (r: Value)
    ensures Truthy(ServerMessage(t)) ==> r == ServerMessage(t)
    ensures !Truthy(ServerMessage(t)) ==> r == Str(fallback)
    ensures fallback != "" ==> Truthy(r)
    ensures !(t.HttpFailure? && t.error.response.Some?) ==> r == Str(fallback)
  {
    var m := ServerMessage(t);
    if Truthy(m) then m else Str(fallback)
  }

  /**
   * The list in a `/users` payload: the payload itself if it is an array,
   * else its `users` array, else empty. Reading `users` off `null` throws.
   */
  function Normalize(data: Value): (r: Result<seq<Value>, TypeError>)
    ensures r.Failure? <==> Nullish(data)
    ensures data.Arr? ==> r == Success(data.items)
    ensures data.Obj? && "users" in data.fields && data.fields["users"].Arr? ==> r == Success(data.fields["users"].items)
    ensures data.Obj? && !("users" in data.fields && data.fields["users"].Arr?) ==> r == Success([])
    ensures data.Str? || data.Bool? ==> r == Success([])
  {
    if data.Arr? then Success(data.items)
    else match Get(data, "users")
      case Failure(e) => Failure(e)
      case Success(u) => Success(if u.Arr? then u.items else [])
  }

  /** An array payload is its own normal form. */
  lemma NormalizeIdempotent(data: Value)
    requires Normalize(data).Success?
    ensures Normalize(Arr(Normalize(data).value)) == Normalize(data)
  {
  }

  datatype Fetched = Fetched(view: View, requested: bool)

  /** The fetching effect: only an admin's page asks for the list. */
  function FetchUsers(v: View, me: Value, response: Outcome): (r: Fetched)
    ensures r.requested <==> IsAdmin(me)
    ensures !IsAdmin(me) ==> r.view == v
    ensures IsAdmin(me) ==> !r.view.loading
    ensures IsAdmin(me) && response.Resolved? && !Nullish(response.data) ==>
      r.view == v.(users := Normalize(response.data).value, loading := false)
    ensures IsAdmin(me) && response.Resolved? && Nullish(response.data) ==>
      r.view == v.(error := Str(FETCH_FAILED), loading := false)
    ensures IsAdmin(me) && response.Rejected? ==>
      r.view == v.(error := ErrorText(HttpFailure(response.error), FETCH_FAILED), loading := false)
  {
    if !IsAdmin(me) then Fetched(v, false)
    else match response
      case Rejected(e) => Fetched(v.(error := ErrorText(HttpFailure(e), FETCH_FAILED), loading := false), true)
      case Resolved(d) =>
        match Normalize(d)
        case Success(items) => Fetched(v.(users := items, loading := false), true)
        case Failure(_) => Fetched(v.(error := ErrorText(TypeFailure, FETCH_FAILED), loading := false), true)
  }

  /** `u._id === id` on an entry: its `_id` property is the string `id`. */
  predicate HasId(u: Value, id: string) {
    u.Obj? && "_id" in u.fields && u.fields["_id"] == Str(id)
  }

  /** `HasId` is the property read `u._id` of a non-nullish entry, compared with `id`. */
  lemma HasIdReadsUnderscoreId(u: Value, id: string)
    ensures HasId(u, id) <==> !Nullish(u) && Get(u, "_id") == Success(Str(id))
  {
  }

  /** `{ ...u, isActive: !u.isActive }`. */
  function Flip(u: Value): (r: Value)
    requires u.Obj?
    ensures r.Obj?
    ensures "isActive" in r.fields && r.fields["isActive"] == Bool(!Truthy(OptGet(u, "isActive")))
    ensures forall k :: k in u.fields && k != "isActive" ==> k in r.fields && r.fields[k] == u.fields[k]
  {
    Obj(u.fields["isActive" := Bool(!Truthy(OptGet(u, "isActive")))])
  }

  /** The copy has exactly the original's properties plus `isActive`. */
  lemma FlipKeys(u: Value)
    requires u.Obj?
    ensures Flip(u).fields.Keys == u.fields.Keys + {"isActive"}
  {
  }

  /** The callback of the `map`: `u._id === id ? Flip(u) : u`. */
  function FlipIf(u: Value, id: string): Value {
    if HasId(u, id) then Flip(u) else u
  }

  /** `users.map(u => u._id === id ? Flip(u) : u)`. */
  function FlipById(users: seq<Value>, id: string): (r: seq<Value>)
    ensures |r| == |users|
    ensures forall i :: 0 <= i < |users| ==> r[i] == FlipIf(users[i], id)
  {
    if |users| == 0 then []
    else [FlipIf(users[0], id)] + FlipById(users[1..], id)
  }

  /** Every entry with that id carries a boolean `isActive`. */
  predicate FlagsAreBooleans(users: seq<Value>, id: string) {
    forall i :: 0 <= i < |users| && HasId(users[i], id) ==> OptGet(users[i], "isActive").Bool?
  }

  /** Toggling the same account twice restores the list, as long as its flag is a boolean. */
  lemma {:induction false} FlipByIdInvolution(users: seq<Value>, id: string)
    requires FlagsAreBooleans(users, id)
    ensures FlipById(FlipById(users, id), id) == users
  {
    if |users| > 0 {
      var u := users[0];
      if HasId(u, id) {
        assert HasId(Flip(u), id);
        assert Flip(Flip(u)).fields == u.fields;
      }
      assert FlagsAreBooleans(users[1..], id) by {
        forall i | 0 <= i < |users[1..]| && HasId(users[1..][i], id)
          ensures OptGet(users[1..][i], "isActive").Bool?
        {
          assert users[1..][i] == users[i + 1];
        }
      }
      FlipByIdInvolution(users[1..], id);
      assert FlipById(users, id)[1..] == FlipById(users[1..], id);
    }
  }

  /** `users.map` reads `_id` of every entry, which throws on a `null` entry. */
  predicate AnyNullish(users: seq<Value>) {
    exists i :: 0 <= i < |users| && Nullish(users[i])
  }

  datatype Toggled = Toggled(view: View, patched: Option<string>)

  function ToggleUrl(id: string): string {
    "/users/" + id + "/toggle-status"
  }

  /**
   * `handleToggleStatus` with the identity it compares against: refuse the
   * caller's own account, otherwise PATCH and flip the entry.
   */
  function ToggleAgainst(v: View, selfId: Value, userId: string, patch: Outcome): (r: Toggled)
    ensures selfId == Str(userId) ==>
      r == Toggled(v.(error := Str(SELF_DEACTIVATION), showConfirm := false, selected := Null), None)
    ensures selfId != Str(userId) ==> r.patched == Some(ToggleUrl(userId))
    ensures selfId != Str(userId) && patch.Resolved? && !AnyNullish(v.users) ==>
      r.view == v.(users := FlipById(v.users, userId), showConfirm := false, selected := Null)
    ensures selfId != Str(userId) && patch.Resolved? && AnyNullish(v.users) ==>
      r.view == v.(error := Str(TOGGLE_FAILED))
    ensures selfId != Str(userId) && patch.Rejected? ==>
      r.view == v.(error := ErrorText(HttpFailure(patch.error), TOGGLE_FAILED))
  {
    if selfId == Str(userId) then
      Toggled(v.(error := Str(SELF_DEACTIVATION), showConfirm := false, selected := Null), None)
    else match patch
      case Rejected(e) => Toggled(v.(error := ErrorText(HttpFailure(e), TOGGLE_FAILED)), Some(ToggleUrl(userId)))
      case Resolved(_) =>
        if AnyNullish(v.users) then Toggled(v.(error := ErrorText(TypeFailure, TOGGLE_FAILED)), Some(ToggleUrl(userId)))
        else Toggled(v.(users := FlipById(v.users, userId), showConfirm := false, selected := Null), Some(ToggleUrl(userId)))
  }

  /** As written: the guard compares with `user?.id`. */
  function ToggleStatus(v: View, me: Value, userId: string, patch: Outcome): (r: Toggled)
    ensures OptGet(me, "id") == Str(userId) ==> r.patched.None? && r.view.users == v.users
    ensures OptGet(me, "id") == Str(userId) ==>
      r.view.error == Str(SELF_DEACTIVATION) && !r.view.showConfirm && r.view.selected == Null
    ensures OptGet(me, "id") != Str(userId) ==> r.patched == Some(ToggleUrl(userId))
  {
    ToggleAgainst(v, OptGet(me, "id"), userId, patch)
  }

  /**
   * The session user carries `_id`, not `id`: the guard never fires for it,
   * and an admin's own account is sent to the server and flipped.
   */
  lemma SelfGuardMissesUnderscoreId()
    ensures var me := Obj(map["_id" := Str("a1"), "role" := Str("admin")]);
            var v := Initial.(users := [me], loading := false);
            var r := ToggleStatus(v, me, "a1", Resolved(Null));
            r.patched == Some(ToggleUrl("a1")) && r.view.users != v.users
  {
    var me := Obj(map["_id" := Str("a1"), "role" := Str("admin")]);
    var v := Initial.(users := [me], loading := false);
    assert !Nullish(v.users[0]);
    assert !AnyNullish(v.users);
    assert OptGet(me, "id") == Undefined;
    var r := ToggleStatus(v, me, "a1", Resolved(Null));
    assert r.view.users[0] == Flip(me);
    assert "isActive" in r.view.users[0].fields;
  }

  /** Corrected: the guard compares with the session user's `_id`. */
  function ToggleStatusByUnderscoreId(v: View, me: Value, userId: string, patch: Outcome): (r: Toggled)
    ensures HasId(me, userId) ==> r.patched.None? && r.view.users == v.users && r.view.error == Str(SELF_DEACTIVATION)
    ensures HasId(me, userId) ==> !r.view.showConfirm && r.view.selected == Null
    ensures !HasId(me, userId) ==> r.patched == Some(ToggleUrl(userId))
  {
    ToggleAgainst(v, OptGet(me, "_id"), userId, patch)
  }

  /** Opening the confirmation for an entry, and cancelling it. */
  function OpenConfirm(v: View, u: Value): (r: View)
    ensures r.showConfirm && r.selected == u && r.users == v.users
  {
    v.(selected := u, showConfirm := true)
  }

  function CancelConfirm(v: View): (r: View)
    ensures !r.showConfirm && r.selected == Null && r.users == v.users
  {
    v.(showConfirm := false, selected := Null)
  }

  datatype Screen = AccessDenied | LoadingUsers | Table(users: seq<Value>, error: Value, modal: bool)

  /** What the page shows: access is checked before loading. */
  function Render(me: Value, v: View): (r: Screen)
    ensures r.AccessDenied? <==> !IsAdmin(me)
    ensures IsAdmin(me) && v.loading ==> r == LoadingUsers
    ensures IsAdmin(me) && !v.loading ==> r == Table(v.users, v.error, v.showConfirm && Truthy(v.selected))
  {
    if !Truthy(me) || OptGet(me, "role") != Str("admin") then AccessDenied
    else if v.loading then LoadingUsers
    else Table(v.users, v.error, v.showConfirm && Truthy(v.selected))
  }

  /** The page fetches exactly when it does not deny access, and a denied page never reaches its loading view. */
  lemma FetchMatchesAccess(v: View, me: Value, response: Outcome)
    ensures FetchUsers(v, me, response).requested <==> !Render(me, v).AccessDenied?
    ensures !IsAdmin(me) ==> Render(me, FetchUsers(v, me, response).view) == AccessDenied
  {
  }
}

=== FILE: wrappers.dfy ===
/** Option and Result, the failure-carrying shapes every other module uses. */
module Wrappers {

  /** A value that may be absent (`null` or a missing storage key). */
  datatype Option<+T> = None | Some(value: T)

  /** The result of a computation that may throw. */
  datatype Result<+T, +E> = Success(value: T) | Failure(error: E)
}
